=== FILE: README.md ===
# vibe core in Dafny

vibe finds the genes associated with a set of input phenotypes. It queries DisGeNET gene–disease
associations, merges repeated observations of the same gene–disease pair into one combination that
counts, per source, how often the pair was reported and with which evidence URIs, and keeps those
combinations in a collection that is indexed by either endpoint. This project models four parts of it:

- **`Collection`** (`collection.dfy`) models `BiologicalEntityCollection`. It is a set of combinations kept in
  three maps updated in place: the combinations keyed by themselves, and the combinations grouped by their first
  endpoint and by their second endpoint. The class keeps these maps as fields. Its invariant states that each
  grouping map is exactly the grouping of the stored combinations by that endpoint, with no empty groups. Every
  mutator is proved to keep that invariant. Each one also states the new contents in terms of the old ones.
  `getT3Ordered` is proved to return the stored combinations sorted by first then second endpoint, and that
  list is shown to be the only such list.
- **`GeneDisease`** (`gene_disease.dfy`) models `GeneDiseaseCombination`. It holds per-source counts and
  per-source evidence lists. The model proves:
  - `add` increments one count and appends one URI;
  - the union of all evidence grows by exactly that URI;
  - the evidence getters return that union, as a set, as a sorted list without repeats, or with PubMed URIs
    reduced to their number.
- **`HpoTerms`** (`hpo.dfy`) models `Hpo`. An HPO term is `hp:` plus seven digits, or the seven digits alone,
  and the parser is proved to accept exactly the strings matching `^(hp:)?([0-9]{7})$`. The formatted id
  parses back to the same term. The reference comparison in `equals` is a finding, described below.
- **`Options`** (`options.dfy`) models `OptionsParser`. It has the settings with their defaults, the setters,
  the phenotype accumulators and `checkConfig`. `checkConfig` is proved equal to a declarative statement of
  what each run mode needs. The phenotype accumulators are proved against the index of the first string that
  does not convert.
- **`Orders`** (`orders.dfy`) holds what these share: total orders, the stable insertion sort that stands
  for `List.sort`/`Collections.sort`, a character-by-character lexicographic order standing for `String.compareTo`, and the conversion of a set
  into a list.
- **`Wrappers`** (`wrappers.dfy`) holds `Option` for `null`, `Result` for exceptions, and the shared
  `InvalidStringFormat` exception.

Parameters stand in for code that is not visible here:
- the endpoint getters `getT1`/`getT2` of a combination;
- the natural orders of genes, diseases and URIs;
- the `Phenotype(String)` constructor;
- the file-system tests of the option setters, which are booleans.

An element's identity is taken to be its pair of endpoints, which is taken to be the equality of the entity-pair
associations; those classes are not part of this model (see the `Remove` line under "## Left out"). The
collection's self-keyed map is therefore a map from that pair to the stored canonical instance.

`Hpo` (src/main/java/org/molgenis/vibe/formats/Hpo.java:42) accepts only a lower-case `hp:` prefix;
`HpoTerms.RejectsUpperCasePrefix` states this. `Hpo.equals` compares string references (see Findings).

## Model

| member | source | states |
|---|---|---|
| Orders.SortBy | app/src/main/java/org/molgenis/vibe/formats/GeneDiseaseCombination.java:113 | sorting keeps exactly the same elements, with their multiplicities, and the length |
| Orders.SortBySorted | app/src/main/java/org/molgenis/vibe/formats/BiologicalEntityCollection.java:51 | the sorted list is ordered by the comparator whenever the comparator is a total preorder on its elements |
| Orders.SortedUnique | app/src/main/java/org/molgenis/vibe/formats/GeneDiseaseCombination.java:113 | two lists holding the same elements and both sorted by an antisymmetric total preorder are equal, so a sorted result is fully determined |
| Orders.StringLeq | app/src/main/java/org/molgenis/vibe/formats/GeneDiseaseCombination.java:153 | a prefix is at most the longer string, and a string at most another never starts with a larger character |
| Orders.StringLeqIsLexicographic | app/src/main/java/org/molgenis/vibe/formats/GeneDiseaseCombination.java:153 | the string order holds iff the first string is a prefix of the second or, at the first position where they differ, has the smaller character |
| Orders.StringLeqIsTotalOrder | app/src/main/java/org/molgenis/vibe/formats/GeneDiseaseCombination.java:153 | the lexicographic character order used to sort strings is reflexive, antisymmetric, transitive and total |
| Orders.SetToSequence | app/src/main/java/org/molgenis/vibe/formats/GeneDiseaseCombination.java:111-112 | copying a set into a new list yields each element of the set exactly once |
| Orders.SetSequenceDistinct | app/src/main/java/org/molgenis/vibe/formats/GeneDiseaseCombination.java:111-112 | a list holding each element of a set exactly once has no two equal entries |
| Collection.GroupByBuckets | app/src/main/java/org/molgenis/vibe/formats/BiologicalEntityCollection.java:20-25 | a grouping's bucket for a key holds exactly the elements with that key, a key is present iff some element has it, and no bucket is empty |
| Collection.GroupByAdd | app/src/main/java/org/molgenis/vibe/formats/BiologicalEntityCollection.java:122-138 | adding an element to the bucket of its key (creating the bucket if missing) is regrouping the set with the element added |
| Collection.ComparingThen | app/src/main/java/org/molgenis/vibe/formats/BiologicalEntityCollection.java:51 | elements with different first endpoints compare by those endpoints, elements with equal first endpoints by their second endpoints |
| Collection.ComparingThenOrders | app/src/main/java/org/molgenis/vibe/formats/BiologicalEntityCollection.java:51 | ordering by first endpoint then second is a total preorder whose ties have equal endpoints |
| Collection.RemoveEmptySets | app/src/main/java/org/molgenis/vibe/formats/BiologicalEntityCollection.java:197-212 | the result keeps exactly the keys whose bucket is non-empty, with their buckets |
| Collection.BiologicalEntityCollection.constructor | app/src/main/java/org/molgenis/vibe/formats/BiologicalEntityCollection.java:74-75 | a new collection is empty and consistent |
| Collection.BiologicalEntityCollection.FromCombinations | app/src/main/java/org/molgenis/vibe/formats/BiologicalEntityCollection.java:77-79 | a collection built from combinations holds the first instance of each identity among them and is consistent |
| Collection.BiologicalEntityCollection.Inserted | app/src/main/java/org/molgenis/vibe/formats/BiologicalEntityCollection.java:160-170 | inserting a sequence adds exactly the identities of its elements and never replaces an instance already stored |
| Collection.BiologicalEntityCollection.InsertedChanges | app/src/main/java/org/molgenis/vibe/formats/BiologicalEntityCollection.java:160-170 | inserting a sequence changes the stored identities iff some element's identity was absent |
| Collection.BiologicalEntityCollection.InsertKeepsConsistent | app/src/main/java/org/molgenis/vibe/formats/BiologicalEntityCollection.java:112-138 | storing a new combination and filing it under both endpoints keeps both groupings equal to the grouping of the stored combinations |
| Collection.BiologicalEntityCollection.MinusIsKept | app/src/main/java/org/molgenis/vibe/formats/BiologicalEntityCollection.java:174-187 | removing the given identities from the key set, or retaining only them, is filtering the map by membership |
| Collection.BiologicalEntityCollection.KeptValues | app/src/main/java/org/molgenis/vibe/formats/BiologicalEntityCollection.java:141-195 | filtering the self-keyed map by identity filters its stored combinations the same way |
| Collection.BiologicalEntityCollection.FilterGroupBy | app/src/main/java/org/molgenis/vibe/formats/BiologicalEntityCollection.java:144-148 | filtering every bucket of a grouping and dropping the emptied buckets is grouping the filtered set |
| Collection.BiologicalEntityCollection.PurgeKeepsConsistent | app/src/main/java/org/molgenis/vibe/formats/BiologicalEntityCollection.java:141-195 | removing or retaining identities in the map and in every bucket, then dropping empty buckets, keeps the three maps consistent |
| Collection.BiologicalEntityCollection.StoredIsCanonical | app/src/main/java/org/molgenis/vibe/formats/BiologicalEntityCollection.java:112-114 | every stored combination is the instance stored under its own identity |
| Collection.BiologicalEntityCollection.ValuesCount | app/src/main/java/org/molgenis/vibe/formats/BiologicalEntityCollection.java:82-84 | a map keyed by identity holds as many distinct combinations as it has keys |
| Collection.BiologicalEntityCollection.Get | app/src/main/java/org/molgenis/vibe/formats/BiologicalEntityCollection.java:27-29 | returns the stored instance with the argument's identity, and nothing iff none is stored |
| Collection.BiologicalEntityCollection.GetT1 | app/src/main/java/org/molgenis/vibe/formats/BiologicalEntityCollection.java:31-33 | the first endpoints of the stored combinations, no more |
| Collection.BiologicalEntityCollection.GetT2 | app/src/main/java/org/molgenis/vibe/formats/BiologicalEntityCollection.java:35-37 | the second endpoints of the stored combinations, no more |
| Collection.BiologicalEntityCollection.GetT3 | app/src/main/java/org/molgenis/vibe/formats/BiologicalEntityCollection.java:39-41 | exactly the canonical stored combinations |
| Collection.BiologicalEntityCollection.GetByT1 | app/src/main/java/org/molgenis/vibe/formats/BiologicalEntityCollection.java:61-63 | the stored combinations with that first endpoint, or nothing (`null`) iff there are none |
| Collection.BiologicalEntityCollection.GetByT2 | app/src/main/java/org/molgenis/vibe/formats/BiologicalEntityCollection.java:70-72 | the stored combinations with that second endpoint, or nothing (`null`) iff there are none |
| Collection.BiologicalEntityCollection.Size | app/src/main/java/org/molgenis/vibe/formats/BiologicalEntityCollection.java:82-84 | the number of stored combinations |
| Collection.BiologicalEntityCollection.IsEmpty | app/src/main/java/org/molgenis/vibe/formats/BiologicalEntityCollection.java:87-89 | true iff no combination is stored |
| Collection.BiologicalEntityCollection.Contains | app/src/main/java/org/molgenis/vibe/formats/BiologicalEntityCollection.java:92-94 | true iff a combination with the argument's identity is stored |
| Collection.BiologicalEntityCollection.ContainsAll | app/src/main/java/org/molgenis/vibe/formats/BiologicalEntityCollection.java:155-157 | true iff every argument is contained |
| Collection.BiologicalEntityCollection.Add | app/src/main/java/org/molgenis/vibe/formats/BiologicalEntityCollection.java:112-138 | adds iff the identity is new: then the combination is stored and filed under both endpoints and the contents grow by it; otherwise nothing changes; consistency is kept |
| Collection.BiologicalEntityCollection.AddAll | app/src/main/java/org/molgenis/vibe/formats/BiologicalEntityCollection.java:160-170 | adds the elements in order, reports a change iff some identity was new, and keeps consistency |
| Collection.BiologicalEntityCollection.FilterBuckets | app/src/main/java/org/molgenis/vibe/formats/BiologicalEntityCollection.java:144-145 | removes, or retains, the given identities in every bucket of an index |
| Collection.BiologicalEntityCollection.Remove | app/src/main/java/org/molgenis/vibe/formats/BiologicalEntityCollection.java:141-152 | reports true iff the identity was stored; afterwards exactly the combinations of other identities remain, in all three maps, and consistency is kept |
| Collection.BiologicalEntityCollection.RemoveAll | app/src/main/java/org/molgenis/vibe/formats/BiologicalEntityCollection.java:173-183 | for an argument that is a value, not a view of the collection's own sets: reports a change iff some argument's identity was stored; afterwards exactly the combinations of other identities remain and consistency is kept |
| Collection.BiologicalEntityCollection.RemoveAllOwnBucketAsWritten | app/src/main/java/org/molgenis/vibe/formats/BiologicalEntityCollection.java:173-183 | `removeAll(getByT1(t1))` as written: the map loses the identities of the bucket of `t1` and keeps every other entry, the bucket of `t1` is gone from the T1 index, and the T2 index keeps its buckets unfiltered |
| Collection.BiologicalEntityCollection.RemoveAllOwnContentsAsWritten | app/src/main/java/org/molgenis/vibe/formats/BiologicalEntityCollection.java:173-183 | `removeAll(getT3())` as written: the map is empty, and both indexes keep their buckets unchanged |
| Collection.BiologicalEntityCollection.RemoveAllOwnBucketBreaksIndex | app/src/main/java/org/molgenis/vibe/formats/BiologicalEntityCollection.java:173-183 | with the argument a live view of the bucket of `t1`, as written, some combination of that bucket is no longer stored but is still in the T2 index, so the structures no longer agree |
| Collection.BiologicalEntityCollection.RemoveAllOwnContentsBreaksIndexes | app/src/main/java/org/molgenis/vibe/formats/BiologicalEntityCollection.java:173-183 | with the argument a live view of the map's key set, as written, a non-empty collection ends with an empty map and both indexes non-empty |
| Collection.BiologicalEntityCollection.RemoveAllOfBucketCopy | app/src/main/java/org/molgenis/vibe/formats/BiologicalEntityCollection.java:173-183 | removing a copy of the bucket of `t1` keeps the structures in agreement and keeps exactly the combinations with another first endpoint |
| Collection.BiologicalEntityCollection.RemoveAllOfContentsCopy | app/src/main/java/org/molgenis/vibe/formats/BiologicalEntityCollection.java:173-183 | removing a copy of the contents empties the map and both indexes |
| Collection.BiologicalEntityCollection.RetainAll | app/src/main/java/org/molgenis/vibe/formats/BiologicalEntityCollection.java:186-195 | reports a change iff some stored identity is not among the arguments'; afterwards exactly the combinations of those identities remain and consistency is kept |
| Collection.BiologicalEntityCollection.Clear | app/src/main/java/org/molgenis/vibe/formats/BiologicalEntityCollection.java:215-219 | all three maps are empty afterwards |
| Collection.BiologicalEntityCollection.GetT3Ordered | app/src/main/java/org/molgenis/vibe/formats/BiologicalEntityCollection.java:48-54 | every stored combination exactly once, sorted by first endpoint and then by second |
| Collection.BiologicalEntityCollection.OrderedIsUnique | app/src/main/java/org/molgenis/vibe/formats/BiologicalEntityCollection.java:48-54 | any two such orderings of the contents are identical, so the order is independent of the map's iteration order |
| GeneDisease.Simplify | app/src/main/java/org/molgenis/vibe/formats/GeneDiseaseCombination.java:166 | a PubMed URI loses exactly its `http://identifiers.org/pubmed/` prefix; any other URI is kept whole |
| GeneDisease.SimplifyPubmed | app/src/main/java/org/molgenis/vibe/formats/GeneDiseaseCombination.java:166 | the PubMed prefix followed by a number simplifies to that number |
| GeneDisease.PreimagesAdd | app/src/main/java/org/molgenis/vibe/formats/GeneDiseaseCombination.java:164-167 | one more URI adds one to the count of the string it simplifies to and to no other |
| GeneDisease.PreimagesPositive | app/src/main/java/org/molgenis/vibe/formats/GeneDiseaseCombination.java:164-167 | a string is produced at least once iff some URI simplifies to it |
| GeneDisease.SimplifyEvidence | app/src/main/java/org/molgenis/vibe/formats/GeneDiseaseCombination.java:163-168 | one string per URI, each string occurring as often as there are URIs simplifying to it |
| GeneDisease.GeneDiseaseCombination.constructor | app/src/main/java/org/molgenis/vibe/formats/GeneDiseaseCombination.java:175-177 | a combination without score, counts or evidence |
| GeneDisease.GeneDiseaseCombination.WithScore | app/src/main/java/org/molgenis/vibe/formats/GeneDiseaseCombination.java:179-182 | a combination with the given score and no counts or evidence |
| GeneDisease.GeneDiseaseCombination.GetDisgenetScore | app/src/main/java/org/molgenis/vibe/formats/GeneDiseaseCombination.java:43-45 | the score, which must be present |
| GeneDisease.GeneDiseaseCombination.GetCountForSource | app/src/main/java/org/molgenis/vibe/formats/GeneDiseaseCombination.java:64-70 | the stored count, and 0 exactly for a source never added |
| GeneDisease.GeneDiseaseCombination.GetSourcesWithCount | app/src/main/java/org/molgenis/vibe/formats/GeneDiseaseCombination.java:55-57 | exactly the sources with a positive count |
| GeneDisease.GeneDiseaseCombination.GetEvidenceForSource | app/src/main/java/org/molgenis/vibe/formats/GeneDiseaseCombination.java:85-91 | the non-empty evidence list, no longer than the source's count, or nothing (`null`) iff the source has no evidence |
| GeneDisease.GeneDiseaseCombination.GetSourcesWithEvidence | app/src/main/java/org/molgenis/vibe/formats/GeneDiseaseCombination.java:76-78 | exactly the sources with evidence, all of which have a count |
| GeneDisease.GeneDiseaseCombination.Add | app/src/main/java/org/molgenis/vibe/formats/GeneDiseaseCombination.java:206-213 | the source's count goes up by one (from 0 when absent); evidence is unchanged |
| GeneDisease.GeneDiseaseCombination.AddWithEvidence | app/src/main/java/org/molgenis/vibe/formats/GeneDiseaseCombination.java:189-200 | the count goes up by one, the URI is appended to the source's list (created when absent), and the union of all evidence grows by exactly that URI |
| GeneDisease.GeneDiseaseCombination.AppendGrowsFlatten | app/src/main/java/org/molgenis/vibe/formats/GeneDiseaseCombination.java:194-199 | appending to one source's list adds exactly that URI to the union of all lists |
| GeneDisease.GeneDiseaseCombination.GetAllEvidence | app/src/main/java/org/molgenis/vibe/formats/GeneDiseaseCombination.java:97-104 | the union of the evidence of all sources |
| GeneDisease.GeneDiseaseCombination.GetAllEvidenceOrdered | app/src/main/java/org/molgenis/vibe/formats/GeneDiseaseCombination.java:110-116 | every evidence URI exactly once, in the URI order |
| GeneDisease.GeneDiseaseCombination.GetAllEvidenceSimplified | app/src/main/java/org/molgenis/vibe/formats/GeneDiseaseCombination.java:136-141 | the set of simplified forms of all evidence URIs |
| GeneDisease.GeneDiseaseCombination.GetAllEvidenceSimplifiedOrdered | app/src/main/java/org/molgenis/vibe/formats/GeneDiseaseCombination.java:150-156 | one string per evidence URI, each string as often as URIs simplify to it, in string order |
| GeneDisease.TwoEvidenceAdds | app/src/test/java/org/molgenis/vibe/tdb_processing/GenesForPhenotypeRetrieverTester.java:86-87 | two evidence adds for one source give count 2 and the two URIs in insertion order |
| HpoTerms.RetrieveIdNumbers | src/main/java/org/molgenis/vibe/formats/Hpo.java:41-48 | succeeds iff the whole term matches `^(hp:)?([0-9]{7})$`, returning the seven digits; otherwise fails with the message naming the term and the pattern |
| HpoTerms.NewHpo | src/main/java/org/molgenis/vibe/formats/Hpo.java:20-22 | a term whose id is the parsed digits, or the format error |
| HpoTerms.Hpo.GetId | src/main/java/org/molgenis/vibe/formats/Hpo.java:24-26 | the id is always seven ASCII digits |
| HpoTerms.Hpo.GetFormattedId | src/main/java/org/molgenis/vibe/formats/Hpo.java:31-33 | `hp:` followed by the id, a string the parser maps back to the id |
| HpoTerms.AcceptsPrefixed | src/main/java/org/molgenis/vibe/formats/Hpo.java:42-44 | `hp:` plus seven digits is accepted with those digits as id |
| HpoTerms.AcceptsBare | src/main/java/org/molgenis/vibe/formats/Hpo.java:42-44 | seven digits alone are accepted with the same id |
| HpoTerms.RoundTrip | src/main/java/org/molgenis/vibe/formats/Hpo.java:20-33 | constructing from the formatted id, or from the bare id, gives back the same term |
| HpoTerms.RejectsUpperCasePrefix | src/main/java/org/molgenis/vibe/formats/Hpo.java:42-47 | `HP:` plus seven digits is rejected |
| HpoTerms.RejectsLength | src/main/java/org/molgenis/vibe/formats/Hpo.java:42-47 | a term of any length other than 7 or 10 is rejected with the format message |
| HpoTerms.RejectsNonDigit | src/main/java/org/molgenis/vibe/formats/Hpo.java:42-47 | a term with a non-digit among its last seven characters is rejected |
| HpoTerms.Hpo.Equals | src/main/java/org/molgenis/vibe/formats/Hpo.java:50-56 | the corrected equality holds exactly for equal terms |
| HpoTerms.EqualsMatchesIds | src/main/java/org/molgenis/vibe/formats/Hpo.java:50-56 | the corrected equality holds for two parsed terms iff their ids are equal |
| HpoTerms.NewHpoObject | src/main/java/org/molgenis/vibe/formats/Hpo.java:20-22 | on string objects: the id has the parsed digits; it is the input object itself for a bare term and a new object for a prefixed one |
| HpoTerms.EqualsAsWritten | src/main/java/org/molgenis/vibe/formats/Hpo.java:50-56 | the equality as written holds for the same object and for objects sharing one id string object |
| HpoTerms.EqualsAsWrittenSound | src/main/java/org/molgenis/vibe/formats/Hpo.java:52-55 | when objects and strings with the same identity agree, the equality as written only reports terms whose ids have the same characters |
| HpoTerms.NewHpoObjectCoherent | src/main/java/org/molgenis/vibe/formats/Hpo.java:20-22 | constructing a term from a string object, with a fresh identity for a new substring, keeps string objects with the same identity agreeing on their characters |
| HpoTerms.EqualsAsWrittenMissesEqualIds | src/main/java/org/molgenis/vibe/formats/Hpo.java:55 | two terms made from `hp:0000001` have equal ids, yet the equality as written reports them different |
| Options.NoneModeAdheres | app/src/main/java/org/molgenis/vibe/io/options_digestion/OptionsParser.java:257-259 | with run mode NONE the settings adhere, whatever the other fields hold |
| Options.MissingCommonSettingRefused | app/src/main/java/org/molgenis/vibe/io/options_digestion/OptionsParser.java:261-275 | in any other mode a missing database, output writer, output format factory or prioritizer is refused |
| Options.GenesForPhenotypesAdheres | app/src/main/java/org/molgenis/vibe/io/options_digestion/OptionsParser.java:295-299 | GENES_FOR_PHENOTYPES adheres iff those four are set and there is a phenotype |
| Options.AssociatedPhenotypesAdheres | app/src/main/java/org/molgenis/vibe/io/options_digestion/OptionsParser.java:279-299 | GENES_FOR_PHENOTYPES_WITH_ASSOCIATED_PHENOTYPES also needs a phenotypes retriever, the ontology and a maximum distance, and a phenotype |
| Options.AssociatedModeIncludesPlainMode | app/src/main/java/org/molgenis/vibe/io/options_digestion/OptionsParser.java:279-299 | the associated mode adheres iff its extra settings are set and the same settings would adhere in GENES_FOR_PHENOTYPES |
| Options.OptionsParser.constructor | app/src/main/java/org/molgenis/vibe/io/options_digestion/OptionsParser.java:30-76 | run mode NONE, no phenotypes, the highest-DisGeNET-score prioritizer, every other field unset, and the settings adhere |
| Options.OptionsParser.SetVerbose | app/src/main/java/org/molgenis/vibe/io/options_digestion/OptionsParser.java:82-84 | only the verbosity changes |
| Options.OptionsParser.SetRunMode | app/src/main/java/org/molgenis/vibe/io/options_digestion/OptionsParser.java:96-98 | only the run mode changes |
| Options.OptionsParser.SetHpoOntology | app/src/main/java/org/molgenis/vibe/io/options_digestion/OptionsParser.java:108-114 | stores the path iff it is a readable file, otherwise fails and changes nothing |
| Options.OptionsParser.SetDatabase | app/src/main/java/org/molgenis/vibe/io/options_digestion/OptionsParser.java:124-130 | stores the path iff it is a directory, otherwise fails and changes nothing |
| Options.OptionsParser.SetFileOutputWriter | app/src/main/java/org/molgenis/vibe/io/options_digestion/OptionsParser.java:197-202 | fails without change iff the file already exists as a readable file; otherwise output goes to that file |
| Options.OptionsParser.SetStdoutOutputWriter | app/src/main/java/org/molgenis/vibe/io/options_digestion/OptionsParser.java:207-209 | only the output writer changes, to standard output |
| Options.OptionsParser.SetGenePrioritizedOutputFormatWriterFactory | app/src/main/java/org/molgenis/vibe/io/options_digestion/OptionsParser.java:215-217 | only the output format factory changes |
| Options.OptionsParser.SetPhenotypesRetrieverFactory | app/src/main/java/org/molgenis/vibe/io/options_digestion/OptionsParser.java:223-225 | only the phenotypes retriever factory changes |
| Options.OptionsParser.SetOntologyMaxDistance | app/src/main/java/org/molgenis/vibe/io/options_digestion/OptionsParser.java:244-246 | only the maximum distance changes |
| Options.OptionsParser.SetPhenotypes | app/src/main/java/org/molgenis/vibe/io/options_digestion/OptionsParser.java:136-138 | the phenotypes become the given set |
| Options.OptionsParser.AddPhenotypes | app/src/main/java/org/molgenis/vibe/io/options_digestion/OptionsParser.java:140-142 | the phenotypes become their union with the given set |
| Options.OptionsParser.AddPhenotype | app/src/main/java/org/molgenis/vibe/io/options_digestion/OptionsParser.java:144-146 | the phenotype is added, nothing else changes |
| Options.OptionsParser.FirstFailure | app/src/main/java/org/molgenis/vibe/io/options_digestion/OptionsParser.java:163-167 | the index of the first string that does not convert, with all before it converting; none iff all convert |
| Options.OptionsParser.FirstFailureAt | app/src/main/java/org/molgenis/vibe/io/options_digestion/OptionsParser.java:163-167 | a non-converting string after a converting prefix is the first failure |
| Options.OptionsParser.ParsedStep | app/src/main/java/org/molgenis/vibe/io/options_digestion/OptionsParser.java:164-165 | converting one more string adds exactly its phenotype |
| Options.OptionsParser.AddPhenotypeFromString | app/src/main/java/org/molgenis/vibe/io/options_digestion/OptionsParser.java:174-176 | a converting string adds its phenotype; otherwise its error is returned and nothing changes |
| Options.OptionsParser.AddPhenotypesFromStrings | app/src/main/java/org/molgenis/vibe/io/options_digestion/OptionsParser.java:163-167 | when all strings convert the phenotypes grow by all of them; otherwise the first failure's error is returned and exactly the phenotypes of the strings before it were added |
| Options.OptionsParser.SetPhenotypesFromStrings | app/src/main/java/org/molgenis/vibe/io/options_digestion/OptionsParser.java:153-156 | as adding from strings, starting from no phenotypes |
| Options.OptionsParser.CheckConfig | app/src/main/java/org/molgenis/vibe/io/options_digestion/OptionsParser.java:257-304 | the fall-through checks answer exactly whether the settings adhere to the run mode, and change nothing |

## Left out

- `iterator`, `toArray`, `toString`, `equals` and `hashCode` of `BiologicalEntityCollection`: these are iteration, array conversion and printing. The contents they expose are stated by `GetT3`.
- `getGene`, `getDisease`, `getSourcesCount`, `getAllEvidenceOrderedStrings` and `toString` of `GeneDiseaseCombination`: these are plain accessors and printing. `URI.toString` is not part of this model.
- Collection.BiologicalEntityCollection.GetT3: the self-keyed map's key set is given as its stored values, since each key is stored as its own value.
- Collection.BiologicalEntityCollection.Remove: combinations are identified by their pair of endpoints. The equality of the combination classes is not part of this model. `RemoveAll`, `RetainAll`, `Contains`, `ContainsAll` and `Get` do the same, and their arguments are combinations rather than arbitrary objects.
- Collection.BiologicalEntityCollection.RemoveAll: its argument is a value. In the source the argument can be a live view of the collection's own sets, and then `removeAll` does not keep the indexes consistent (app/src/main/java/org/molgenis/vibe/formats/BiologicalEntityCollection.java:173-183). With `getByT1(t1)`, the T1 pass empties the argument along with the bucket, so the T2 pass removes nothing. With `getT3()`, or with the collection itself (`c.removeAll(c)`), the map's own `removeAll` empties the argument first, so neither index changes. These two cases are the Findings below. A view from `getByT2` is harmless, because its bucket is emptied only in the last pass.
- Collection.BiologicalEntityCollection.AddAll: its argument is a sequence, in the order of the collection's iterator.
- Collection.BiologicalEntityCollection.GetByT1: `unmodifiableSet` views are returned as values. Later mutation seen through a view, and the aliasing of the internal buckets, are not modelled. The same holds for `GetByT2`, `GetT1`, `GetT2` and `GetT3`.
- Collection.BiologicalEntityCollection.GetT3Ordered: it requires the endpoint orders to be total. They are the natural orders of the entity classes, which are not part of this model.
- GeneDisease.GeneDiseaseCombination.Add: the `Integer` count is unbounded, so the 32-bit wrap-around after 2^31 - 1 additions is not modelled.
- GeneDisease.GeneDiseaseCombination.GetDisgenetScore: unboxing a missing score throws; here that is a precondition. The score is an opaque real, and no arithmetic is done on it.
- GeneDisease.GeneDiseaseCombination.GetAllEvidenceOrdered: `URI.compareTo` is an abstract total order given as a parameter.
- GeneDisease.GeneDiseaseCombination.GetAllEvidenceSimplifiedOrdered: `String.compareTo` compares UTF-16 code units, but the model compares Unicode characters. The two orders differ only for characters outside the Basic Multilingual Plane.
- GeneDisease.GeneDiseaseCombination.GetEvidenceForSource: the returned list is a value, not an unmodifiable view of the stored list. Likewise `GetSourcesWithCount` and `GetSourcesWithEvidence` return sets as values, where the source returns `unmodifiableSet` views of the maps' key sets (app/src/main/java/org/molgenis/vibe/formats/GeneDiseaseCombination.java:55-57, :76-78) that later `add` calls change.
- The iteration order of `HashMap` and `HashSet` is not modelled. Results are stated as sets, or as sorted lists where the source sorts.
- `hashCode` of `Hpo` is not modelled, because it is only a hash of the id.
- `printVerbose`/`isVerbose` and `System.out`: printing is not modelled.
- `Paths.get` and the `String` overloads of `setHpoOntology`, `setDatabase` and `setFileOutputWriter` are not modelled. The exception messages built from `getFileName()` are also out; the errors carry the path instead.
- Files.isReadable, Files.isRegularFile and Files.isDirectory are not modelled; their answers are the boolean arguments of the setters.
- `setOntologyMaxDistance(String)` and `Integer.parseInt` are not modelled, and neither is `setPhenotypesRetrieverFactory(String)` with the enum lookup by name. The `int` overload and the factory overload are modelled.
- Options.OptionsParser.SetPhenotypes: the given set is stored as a value. In the source it is aliased, so a later `addPhenotype` also changes the caller's set.
- The getters of `OptionsParser` are not modelled: they are plain field reads, and the fields are visible in the model. `getOntologyMaxDistance` would throw while the distance is unset.
- `Phenotype(String)`, the conversion from a string to a phenotype, is a parameter of the parser. Its format rules are not part of this model.
- `null` arguments are not modelled, since the model's types have no `null`. In the source, `add(null)` stores a `null` key in the self-keyed map and then throws when it reads that key's endpoints (app/src/main/java/org/molgenis/vibe/formats/BiologicalEntityCollection.java:113-116). `setRunMode(null)` makes `checkConfig` throw at `runMode.equals` (app/src/main/java/org/molgenis/vibe/io/options_digestion/OptionsParser.java:259). `setPhenotypes(null)` makes it throw at `phenotypes.size()` (:297) only when the run mode is not NONE and every setting that mode checks before it (:261-275, and :281-291 for the associated-phenotypes mode) is set; otherwise `checkConfig` returns before reading the phenotypes.
- `URI.equals` ignores case in the scheme and host and in percent-escapes, so the `HashSet<URI>` of `getAllEvidence` (app/src/main/java/org/molgenis/vibe/formats/GeneDiseaseCombination.java:98-101) can merge URIs whose strings differ. Here a URI is its string, and such URIs stay apart.

## Findings

| source | as written | input that shows it | evidently intended | confidence | as-written member | corrected member |
|---|---|---|---|---|---|---|
| src/main/java/org/molgenis/vibe/formats/Hpo.java:55 | `equals` compares the two id `String`s with `==`, i.e. by reference; the id of a prefixed term is a new substring object | `new Hpo("hp:0000001").equals(new Hpo("hp:0000001"))` is false although both ids are `0000001` (and their hash codes agree) | compare the ids by content, `id.equals(hpo.id)` | not executed | HpoTerms.EqualsAsWrittenMissesEqualIds | HpoTerms.EqualsMatchesIds |
| app/src/main/java/org/molgenis/vibe/formats/BiologicalEntityCollection.java:173-183 | `removeAll(c)` filters the map, then the T1 buckets, then the T2 buckets by the same live `c`; when `c` is a view of a bucket of the T1 index, the T1 pass empties `c` as well | `c.removeAll(c.getByT1(t1))` for a stored `t1`: the removed combinations stay in `combinationsByT2` | copy the argument first, `new HashSet<>(c)`, so every pass removes the same combinations | not executed | Collection.BiologicalEntityCollection.RemoveAllOwnBucketBreaksIndex | Collection.BiologicalEntityCollection.RemoveAllOfBucketCopy |
| app/src/main/java/org/molgenis/vibe/formats/BiologicalEntityCollection.java:173-183 | when `c` is the view of the map's own key set, the map's `removeAll` empties `c` before the index passes | `c.removeAll(c.getT3())` on a non-empty collection: the map is empty, both indexes still hold every combination | copy the argument first, `new HashSet<>(c)` | not executed | Collection.BiologicalEntityCollection.RemoveAllOwnContentsBreaksIndexes | Collection.BiologicalEntityCollection.RemoveAllOfContentsCopy |

=== FILE: collection.dfy ===
/**
 * The dual-indexed association collection: a set of (T1, T2) combinations kept in a
 * self-keyed map of canonical instances, an index from T1 to its combinations and an
 * index from T2 to its combinations.
 */
module Collection {
  import opened Wrappers
  import opened Orders

  /**
   * The identity of a combination. Two combinations are equal (and hash alike) exactly
   * when their two endpoints are equal; whatever else they carry is not part of it.
   */
  datatype Pair<T1, T2> = Pair(t1: T1, t2: T2)

  /** The value an index holds for `k`, or the empty set when it has no bucket for `k`. */
  function Bucket<K, V>(m: map<K, set<V>>, k: K): set<V>
  {
    if k in m then m[k] else {}
  }

  /**
   * The elements of `s` grouped by `key`: one bucket per key that some element has,
   * holding exactly the elements with that key.
   */
  ghost function GroupBy<T, K>(s: set<T>, key: T -> K): map<K, set<T>>
  {
    var keys := set x | x in s :: key(x);
    map k | k in keys :: set x | x in s && key(x) == k
  }

  /** A grouping has no empty bucket, and each bucket holds exactly the elements with its key. */
  lemma GroupByBuckets<T, K>(s: set<T>, key: T -> K, k: K)
    ensures Bucket(GroupBy(s, key), k) == set x | x in s && key(x) == k
    ensures k in GroupBy(s, key) ==> GroupBy(s, key)[k] != {}
    ensures k in GroupBy(s, key) <==> exists x :: x in s && key(x) == k
  {
    if exists x :: x in s && key(x) == k {
      var x :| x in s && key(x) == k;
      assert x in GroupBy(s, key)[k];
    }
  }

  /** Adding one element to a grouping adds it to the bucket of its key, creating the bucket when missing. */
  lemma {:induction false} GroupByAdd<T, K>(s: set<T>, key: T -> K, x: T)
    ensures GroupBy(s + {x}, key) == GroupBy(s, key)[key(x) := Bucket(GroupBy(s, key), key(x)) + {x}]
  {
    var g, g' := GroupBy(s, key), GroupBy(s + {x}, key);
    var h := g[key(x) := Bucket(g, key(x)) + {x}];
    forall k ensures (k in g' <==> k in h) && (k in g' ==> g'[k] == h[k]) {
      GroupByBuckets(s, key, k);
      GroupByBuckets(s + {x}, key, k);
    }
  }

  /** The index `m` without its empty buckets. */
  ghost function NonEmptyBuckets<K, V>(m: map<K, set<V>>): map<K, set<V>>
  {
    map k | k in m && m[k] != {} :: m[k]
  }

  /**
   * The comparator `comparing(getT1).thenComparing(getT2)`: order by the first endpoint
   * and, when the first endpoints are equal, by the second.
   */
  function ComparingThen<T1(==), T2, T3(!new)>(t1Of: T3 -> T1, leq1: (T1, T1) -> bool,
                                        t2Of: T3 -> T2, leq2: (T2, T2) -> bool): (cmp: (T3, T3) -> bool)
    ensures forall a, b :: t1Of(a) != t1Of(b) ==> (cmp(a, b) <==> leq1(t1Of(a), t1Of(b)))
    ensures forall a, b :: t1Of(a) == t1Of(b) ==> (cmp(a, b) <==> leq2(t2Of(a), t2Of(b)))
  {
    (a: T3, b: T3) => if t1Of(a) != t1Of(b) then leq1(t1Of(a), t1Of(b)) else leq2(t2Of(a), t2Of(b))
  }

  /** When both endpoint orders are total, the combined comparator only ties equal endpoints. */
  lemma ComparingThenOrders<T1(!new), T2(!new), T3(!new)>(t1Of: T3 -> T1, leq1: (T1, T1) -> bool,
                                                   t2Of: T3 -> T2, leq2: (T2, T2) -> bool, s: set<T3>)
    requires TotalOrder(leq1) && TotalOrder(leq2)
    ensures TotalPreorderOn(s, ComparingThen(t1Of, leq1, t2Of, leq2))
    ensures forall a, b ::
              (a in s && b in s && ComparingThen(t1Of, leq1, t2Of, leq2)(a, b)
               && ComparingThen(t1Of, leq1, t2Of, leq2)(b, a))
              ==> t1Of(a) == t1Of(b) && t2Of(a) == t2Of(b)
  {
    var cmp := ComparingThen(t1Of, leq1, t2Of, leq2);
    forall a, b, c | a in s && b in s && c in s && cmp(a, b) && cmp(b, c)
      ensures cmp(a, c)
    {
    }
  }

  /** `removeEmptySets`: collects the keys whose bucket is empty, then deletes them. */
  method RemoveEmptySets<K, V>(combinationsByKey: map<K, set<V>>) returns (r: map<K, set<V>>)
    ensures r == NonEmptyBuckets(combinationsByKey)
  {
    var keysWithEmptySet: set<K> := {};
    var todo := combinationsByKey.Keys;
    while todo != {}
      invariant todo <= combinationsByKey.Keys
      invariant keysWithEmptySet == set k | k in combinationsByKey.Keys - todo && combinationsByKey[k] == {}
      decreases todo
    {
      var key :| key in todo;
      if combinationsByKey[key] == {} {
        keysWithEmptySet := keysWithEmptySet + {key};
      }
      todo := todo - {key};
    }
    r := combinationsByKey;
    var toRemove := keysWithEmptySet;
    while toRemove != {}
      invariant toRemove <= keysWithEmptySet
      invariant r == combinationsByKey - (keysWithEmptySet - toRemove)
      decreases toRemove
    {
      var key :| key in toRemove;
      r := r - {key};
      toRemove := toRemove - {key};
    }
  }

  class BiologicalEntityCollection<T1(==, !new), T2(==, !new), T3(==, !new)> {
    /** The endpoints of a combination (`getT1`, `getT2`). */
    const t1Of: T3 -> T1
    const t2Of: T3 -> T2
    /** The natural orders (`compareTo`) of the endpoint types. */
    const leq1: (T1, T1) -> bool
    const leq2: (T2, T2) -> bool

    /** Every combination, retrievable through its identity: the canonical instances. */
    var combinationsMap: map<Pair<T1, T2>, T3>
    /** The combinations grouped per T1. */
    var combinationsByT1: map<T1, set<T3>>
    /** The combinations grouped per T2. */
    var combinationsByT2: map<T2, set<T3>>

    function Id(c: T3): Pair<T1, T2>
    {
      Pair(t1Of(c), t2Of(c))
    }

    /** Every entry of the self-keyed map sits under the identity of its value. */
    ghost predicate KeyedById(m: map<Pair<T1, T2>, T3>)
    {
      forall k :: k in m ==> Id(m[k]) == k
    }

    /**
     * The three structures agree: the map holds each combination under its own identity,
     * and each index is exactly the stored combinations grouped by that endpoint (so every
     * stored combination is in exactly its own buckets, every bucket member is stored and
     * no bucket is empty).
     */
    ghost predicate Consistent(m: map<Pair<T1, T2>, T3>, byT1: map<T1, set<T3>>, byT2: map<T2, set<T3>>)
    {
      KeyedById(m) && byT1 == GroupBy(m.Values, t1Of) && byT2 == GroupBy(m.Values, t2Of)
    }

    ghost predicate Valid()
      reads this
    {
      Consistent(combinationsMap, combinationsByT1, combinationsByT2)
    }

    /** The stored combinations. */
    ghost function Contents(): set<T3>
      reads this
    {
      combinationsMap.Values
    }

    /** The members of `s` whose identity is in `ids` (when `retain`) or not in `ids` (otherwise). */
    function Keep(s: set<T3>, ids: set<Pair<T1, T2>>, retain: bool): set<T3>
    {
      set c | c in s && (Id(c) in ids) == retain
    }

    /** Every bucket of the index `m` filtered by `Keep`; empty buckets stay. */
    ghost function Filtered<K>(m: map<K, set<T3>>, ids: set<Pair<T1, T2>>, retain: bool): map<K, set<T3>>
    {
      map k | k in m :: Keep(m[k], ids, retain)
    }

    /** The entries of `m` whose key is in `ids` (when `retain`) or not in `ids` (otherwise). */
    ghost function Kept(m: map<Pair<T1, T2>, T3>, ids: set<Pair<T1, T2>>, retain: bool): map<Pair<T1, T2>, T3>
    {
      map k | k in m && (k in ids) == retain :: m[k]
    }

    /** `m` after inserting the elements of `c` in order, keeping the first instance of each identity. */
    ghost function Inserted(m: map<Pair<T1, T2>, T3>, c: seq<T3>): (r: map<Pair<T1, T2>, T3>)
      ensures r.Keys == m.Keys + set x | x in c :: Id(x)
      ensures forall k :: k in m ==> r[k] == m[k]
      decreases |c|
    {
      if c == [] then m
      else
        var front := c[..|c| - 1];
        var x := c[|c| - 1];
        assert c == front + [x];
        var m' := Inserted(m, front);
        if Id(x) in m' then m' else m'[Id(x) := x]
    }

    /** One more element of `c` is inserted only when its identity is still missing. */
    lemma InsertedStep(m: map<Pair<T1, T2>, T3>, c: seq<T3>, i: nat)
      requires i < |c|
      ensures var before := Inserted(m, c[..i]);
              Inserted(m, c[..i + 1]) == if Id(c[i]) in before then before else before[Id(c[i]) := c[i]]
    {
      assert c[..i + 1][..i] == c[..i];
    }

    /** Inserting `c` adds an identity exactly when some element of `c` has an identity not in `m`. */
    lemma InsertedChanges(m: map<Pair<T1, T2>, T3>, c: seq<T3>)
      ensures Inserted(m, c).Keys != m.Keys <==> exists j :: 0 <= j < |c| && Id(c[j]) !in m
    {
      if exists j :: 0 <= j < |c| && Id(c[j]) !in m {
        var j :| 0 <= j < |c| && Id(c[j]) !in m;
        assert Id(c[j]) in Inserted(m, c).Keys;
      }
    }

    /** Storing a combination whose identity is new, filed under both endpoints, keeps the structures in agreement. */
    lemma {:induction false} InsertKeepsConsistent(m: map<Pair<T1, T2>, T3>, byT1: map<T1, set<T3>>,
                                                  byT2: map<T2, set<T3>>, x: T3)
      requires Consistent(m, byT1, byT2) && Id(x) !in m
      ensures m[Id(x) := x].Values == m.Values + {x}
      ensures Consistent(m[Id(x) := x],
                         byT1[t1Of(x) := Bucket(byT1, t1Of(x)) + {x}],
                         byT2[t2Of(x) := Bucket(byT2, t2Of(x)) + {x}])
    {
      var m' := m[Id(x) := x];
      forall c | c in m.Values ensures c in m'.Values {
        var k :| k in m && m[k] == c;
        assert m'[k] == c;
      }
      assert m'[Id(x)] == x;
      GroupByAdd(m.Values, t1Of, x);
      GroupByAdd(m.Values, t2Of, x);
    }

    /** Removing the keys in `ids`, or all keys but those, is what `Kept` keeps. */
    lemma MinusIsKept(m: map<Pair<T1, T2>, T3>, ids: set<Pair<T1, T2>>)
      ensures m - ids == Kept(m, ids, false)
      ensures m - (m.Keys - ids) == Kept(m, ids, true)
    {
    }

    /** What `Kept` keeps of the stored values. */
    lemma KeptValues(m: map<Pair<T1, T2>, T3>, ids: set<Pair<T1, T2>>, retain: bool)
      requires KeyedById(m)
      ensures Kept(m, ids, retain).Values == Keep(m.Values, ids, retain)
    {
      forall c | c in Keep(m.Values, ids, retain) ensures c in Kept(m, ids, retain).Values {
        var k :| k in m && m[k] == c;
        assert Kept(m, ids, retain)[k] == c;
      }
    }

    /**
     * Filtering every bucket of a grouping by identity and dropping the buckets left empty
     * gives the grouping of the filtered set.
     */
    lemma {:induction false} FilterGroupBy<K>(s: set<T3>, key: T3 -> K, ids: set<Pair<T1, T2>>, retain: bool)
      ensures NonEmptyBuckets(Filtered(GroupBy(s, key), ids, retain)) == GroupBy(Keep(s, ids, retain), key)
    {
      var g := NonEmptyBuckets(Filtered(GroupBy(s, key), ids, retain));
      var h := GroupBy(Keep(s, ids, retain), key);
      forall k ensures (k in g <==> k in h) && (k in g ==> g[k] == h[k]) {
        GroupByBuckets(s, key, k);
        GroupByBuckets(Keep(s, ids, retain), key, k);
        if k in GroupBy(s, key) {
          assert Filtered(GroupBy(s, key), ids, retain)[k] == Bucket(h, k);
        }
      }
    }

    /**
     * Removing the identities in `ids` (or, when `retain`, all others) from the map, filtering
     * every bucket the same way and dropping the buckets left empty keeps the structures in
     * agreement and keeps exactly the matching stored values.
     */
    lemma PurgeKeepsConsistent(m: map<Pair<T1, T2>, T3>, byT1: map<T1, set<T3>>, byT2: map<T2, set<T3>>,
                               ids: set<Pair<T1, T2>>, retain: bool)
      requires Consistent(m, byT1, byT2)
      ensures Kept(m, ids, retain).Values == Keep(m.Values, ids, retain)
      ensures Consistent(Kept(m, ids, retain),
                         NonEmptyBuckets(Filtered(byT1, ids, retain)),
                         NonEmptyBuckets(Filtered(byT2, ids, retain)))
    {
      KeptValues(m, ids, retain);
      FilterGroupBy(m.Values, t1Of, ids, retain);
      FilterGroupBy(m.Values, t2Of, ids, retain);
    }

    /**
     * `removeAll(getByT1(t1))` as written: the argument is a live view of the bucket of `t1`.
     * The map loses the bucket's combinations. The T1 pass filters every bucket by the argument
     * (no other bucket holds one of its members) and in doing so empties the bucket of `t1`,
     * and with it the argument, so the T2 pass removes nothing. Empty buckets are then dropped.
     */
    ghost function RemoveAllOwnBucketAsWritten(m: map<Pair<T1, T2>, T3>, byT1: map<T1, set<T3>>,
                                               byT2: map<T2, set<T3>>, t1: T1)
      : (r: (map<Pair<T1, T2>, T3>, map<T1, set<T3>>, map<T2, set<T3>>))
      requires t1 in byT1
      ensures forall x :: x in byT1[t1] ==> Id(x) !in r.0
      ensures forall k :: k in r.0 ==> k in m && r.0[k] == m[k]
      ensures t1 !in r.1
      ensures forall k :: k in r.2 ==> k in byT2 && r.2[k] == byT2[k]
    {
      var ids := set x | x in byT1[t1] :: Id(x);
      (m - ids, NonEmptyBuckets(Filtered(byT1, ids, false)), NonEmptyBuckets(byT2))
    }

    /**
     * `removeAll(getT3())` as written: the argument is a live view of the map's key set, so
     * the map's own `removeAll` empties both, and neither index pass removes anything.
     */
    ghost function RemoveAllOwnContentsAsWritten(m: map<Pair<T1, T2>, T3>, byT1: map<T1, set<T3>>,
                                                 byT2: map<T2, set<T3>>)
      : (r: (map<Pair<T1, T2>, T3>, map<T1, set<T3>>, map<T2, set<T3>>))
      ensures r.0 == map[]
      ensures forall k :: k in r.1 ==> k in byT1 && r.1[k] == byT1[k]
      ensures forall k :: k in r.2 ==> k in byT2 && r.2[k] == byT2[k]
    {
      (map[], NonEmptyBuckets(byT1), NonEmptyBuckets(byT2))
    }

    /** A stored combination whose identity is in `ids` is no longer a value once `ids` are removed. */
    lemma RemovedIsGone(m: map<Pair<T1, T2>, T3>, ids: set<Pair<T1, T2>>, x: T3)
      requires KeyedById(m) && Id(x) in ids
      ensures x !in (m - ids).Values
    {
    }

    /**
     * On consistent structures with a bucket for `t1`, `removeAll(getByT1(t1))` as written
     * leaves the T2 index holding a combination that is no longer stored, so the structures
     * no longer agree.
     */
    lemma {:induction false} RemoveAllOwnBucketBreaksIndex(m: map<Pair<T1, T2>, T3>, byT1: map<T1, set<T3>>,
                                                          byT2: map<T2, set<T3>>, t1: T1)
      requires Consistent(m, byT1, byT2) && t1 in byT1
      ensures var r := RemoveAllOwnBucketAsWritten(m, byT1, byT2, t1);
              && (exists x :: x in byT1[t1] && x !in r.0.Values && x in Bucket(r.2, t2Of(x)))
              && !Consistent(r.0, r.1, r.2)
    {
      var r := RemoveAllOwnBucketAsWritten(m, byT1, byT2, t1);
      var ids := set x | x in byT1[t1] :: Id(x);
      GroupByBuckets(m.Values, t1Of, t1);
      var x :| x in byT1[t1];
      RemovedIsGone(m, ids, x);
      GroupByBuckets(m.Values, t2Of, t2Of(x));
      assert x in Bucket(r.2, t2Of(x));
      GroupByBuckets(r.0.Values, t2Of, t2Of(x));
    }

    /**
     * On consistent structures holding at least one combination, `removeAll(getT3())` as
     * written empties the map but leaves both indexes as they were, so they no longer agree.
     */
    lemma {:induction false} RemoveAllOwnContentsBreaksIndexes(m: map<Pair<T1, T2>, T3>, byT1: map<T1, set<T3>>,
                                                              byT2: map<T2, set<T3>>)
      requires Consistent(m, byT1, byT2) && m != map[]
      ensures var r := RemoveAllOwnContentsAsWritten(m, byT1, byT2);
              r.0 == map[] && r.1 != map[] && r.2 != map[] && !Consistent(r.0, r.1, r.2)
    {
      var k :| k in m;
      var x := m[k];
      GroupByBuckets(m.Values, t1Of, t1Of(x));
      GroupByBuckets(m.Values, t2Of, t2Of(x));
      assert t1Of(x) in NonEmptyBuckets(byT1) && t2Of(x) in NonEmptyBuckets(byT2);
    }

    /**
     * `removeAll(new HashSet<>(getByT1(t1)))`, with the bucket copied into a value first, is
     * `removeAll` of a value argument: the structures stay in agreement and exactly the
     * combinations with another first endpoint remain.
     */
    lemma {:induction false} RemoveAllOfBucketCopy(m: map<Pair<T1, T2>, T3>, byT1: map<T1, set<T3>>,
                                                  byT2: map<T2, set<T3>>, t1: T1)
      requires Consistent(m, byT1, byT2)
      ensures var ids := set x | x in Bucket(byT1, t1) :: Id(x);
              && Consistent(m - ids, NonEmptyBuckets(Filtered(byT1, ids, false)), NonEmptyBuckets(Filtered(byT2, ids, false)))
              && (m - ids).Values == set v | v in m.Values && t1Of(v) != t1
    {
      var ids := set x | x in Bucket(byT1, t1) :: Id(x);
      PurgeKeepsConsistent(m, byT1, byT2, ids, false);
      MinusIsKept(m, ids);
      GroupByBuckets(m.Values, t1Of, t1);
      forall v | v in m.Values ensures (Id(v) in ids <==> t1Of(v) == t1) {
        if Id(v) in ids {
          var x :| x in Bucket(byT1, t1) && Id(x) == Id(v);
        }
      }
    }

    /**
     * `removeAll(new HashSet<>(getT3()))`, with the contents copied first, empties all three
     * structures.
     */
    lemma {:induction false} RemoveAllOfContentsCopy(m: map<Pair<T1, T2>, T3>, byT1: map<T1, set<T3>>,
                                                    byT2: map<T2, set<T3>>)
      requires Consistent(m, byT1, byT2)
      ensures var ids := set x | x in m.Values :: Id(x);
              && m - ids == map[]
              && NonEmptyBuckets(Filtered(byT1, ids, false)) == map[]
              && NonEmptyBuckets(Filtered(byT2, ids, false)) == map[]
    {
      var ids := set x | x in m.Values :: Id(x);
      forall k | k in m ensures k in ids {
        assert Id(m[k]) == k;
      }
      PurgeKeepsConsistent(m, byT1, byT2, ids, false);
      MinusIsKept(m, ids);
      assert Kept(m, ids, false).Values == {};
      forall k | k in GroupBy({}, t1Of) ensures false {
        GroupByBuckets({}, t1Of, k);
      }
      forall k | k in GroupBy({}, t2Of) ensures false {
        GroupByBuckets({}, t2Of, k);
      }
    }

    constructor (t1Of: T3 -> T1, t2Of: T3 -> T2, leq1: (T1, T1) -> bool, leq2: (T2, T2) -> bool)
      ensures Valid()
      ensures this.t1Of == t1Of && this.t2Of == t2Of && this.leq1 == leq1 && this.leq2 == leq2
      ensures combinationsMap == map[] && combinationsByT1 == map[] && combinationsByT2 == map[]
    {
      this.t1Of, this.t2Of, this.leq1, this.leq2 := t1Of, t2Of, leq1, leq2;
      combinationsMap, combinationsByT1, combinationsByT2 := map[], map[], map[];
    }

    /** A collection seeded with `combinations`, added in the order given. */
    constructor FromCombinations(t1Of: T3 -> T1, t2Of: T3 -> T2, leq1: (T1, T1) -> bool,
                                 leq2: (T2, T2) -> bool, combinations: seq<T3>)
      ensures Valid()
      ensures this.t1Of == t1Of && this.t2Of == t2Of && this.leq1 == leq1 && this.leq2 == leq2
      ensures combinationsMap == Inserted(map[], combinations)
    {
      this.t1Of, this.t2Of, this.leq1, this.leq2 := t1Of, t2Of, leq1, leq2;
      combinationsMap, combinationsByT1, combinationsByT2 := map[], map[], map[];
      new;
      var _ := AddAll(combinations);
    }

    /** A stored value that equals `c` is `c` itself. */
    lemma StoredIsCanonical(c: T3)
      requires Valid() && c in Contents()
      ensures Id(c) in combinationsMap && combinationsMap[Id(c)] == c
    {
      var k :| k in combinationsMap && combinationsMap[k] == c;
    }

    /** Distinct keys hold distinct canonical instances, so there are as many as keys. */
    lemma {:induction false} ValuesCount(m: map<Pair<T1, T2>, T3>)
      requires KeyedById(m)
      ensures |m.Values| == |m|
      decreases |m|
    {
      if m != map[] {
        var k :| k in m;
        var m' := m - {k};
        assert m'.Keys == m.Keys - {k};
        ValuesCount(m');
        forall v | v in m.Values ensures v in m'.Values + {m[k]} {
          var j :| j in m && m[j] == v;
          if j != k { assert m'[j] == v; }
        }
        forall v | v in m'.Values ensures v in m.Values && v != m[k] {
          var j :| j in m' && m'[j] == v;
          assert m[j] == v;
        }
        assert m.Values == m'.Values + {m[k]};
      }
    }

    /** `get`: the canonical instance equal to `t3`, if one is stored. */
    function Get(t3: T3): (r: Option<T3>)
      reads this
      requires Valid()
      ensures r.Some? <==> exists c :: c in Contents() && Id(c) == Id(t3)
      ensures r.Some? ==> r.value in Contents() && Id(r.value) == Id(t3)
    {
      if Id(t3) in combinationsMap then Some(combinationsMap[Id(t3)]) else None
    }

    /** `getT1`: the first endpoints currently represented. */
    function GetT1(): (r: set<T1>)
      reads this
      requires Valid()
      ensures r == set c | c in Contents() :: t1Of(c)
    {
      combinationsByT1.Keys
    }

    /** `getT2`: the second endpoints currently represented. */
    function GetT2(): (r: set<T2>)
      reads this
      requires Valid()
      ensures r == set c | c in Contents() :: t2Of(c)
    {
      combinationsByT2.Keys
    }

    /** `getT3`: the stored combinations, each the canonical instance of its identity. */
    function GetT3(): (r: set<T3>)
      reads this
      requires Valid()
      ensures forall c :: c in r ==> Id(c) in combinationsMap && combinationsMap[Id(c)] == c
      ensures forall k :: k in combinationsMap ==> combinationsMap[k] in r
    {
      assert forall c :: c in combinationsMap.Values ==> combinationsMap[Id(c)] == c by {
        forall c | c in combinationsMap.Values ensures combinationsMap[Id(c)] == c {
          StoredIsCanonical(c);
        }
      }
      combinationsMap.Values
    }

    /** `getByT1`: the combinations with first endpoint `t1`, or absent (null) when there are none. */
    function GetByT1(t1: T1): (r: Option<set<T3>>)
      reads this
      requires Valid()
      ensures r.None? <==> forall c :: c in Contents() ==> t1Of(c) != t1
      ensures r.Some? ==> r.value == set c | c in Contents() && t1Of(c) == t1
    {
      GroupByBuckets(combinationsMap.Values, t1Of, t1);
      if t1 in combinationsByT1 then Some(combinationsByT1[t1]) else None
    }

    /** `getByT2`: the combinations with second endpoint `t2`, or absent (null) when there are none. */
    function GetByT2(t2: T2): (r: Option<set<T3>>)
      reads this
      requires Valid()
      ensures r.None? <==> forall c :: c in Contents() ==> t2Of(c) != t2
      ensures r.Some? ==> r.value == set c | c in Contents() && t2Of(c) == t2
    {
      GroupByBuckets(combinationsMap.Values, t2Of, t2);
      if t2 in combinationsByT2 then Some(combinationsByT2[t2]) else None
    }

    /** `size`: the number of distinct stored combinations. */
    function Size(): (n: nat)
      reads this
      requires Valid()
      ensures n == |Contents()|
    {
      ValuesCount(combinationsMap);
      |combinationsMap|
    }

    /** `isEmpty` */
    function IsEmpty(): (r: bool)
      reads this
      requires Valid()
      ensures r <==> Contents() == {}
    {
      |combinationsMap| == 0
    }

    /** `contains`: whether a combination equal to `o` is stored. */
    function Contains(o: T3): (r: bool)
      reads this
      requires Valid()
      ensures r <==> exists c :: c in Contents() && Id(c) == Id(o)
    {
      Id(o) in combinationsMap
    }

    /** `containsAll`: whether a combination equal to each element of `c` is stored. */
    function ContainsAll(c: set<T3>): (r: bool)
      reads this
      requires Valid()
      ensures r <==> forall x :: x in c ==> Contains(x)
    {
      forall x :: x in c ==> Id(x) in combinationsMap
    }

    /**
     * `add`: stores `t3` and files it under both endpoints when no equal combination is
     * stored yet; otherwise changes nothing and the earlier instance stays canonical.
     */
    method Add(t3: T3) returns (added: bool)
      requires Valid()
      modifies this
      ensures Valid()
      ensures added <==> Id(t3) !in old(combinationsMap)
      ensures added ==> combinationsMap == old(combinationsMap)[Id(t3) := t3]
      ensures added ==> combinationsByT1 == old(combinationsByT1)[t1Of(t3) := Bucket(old(combinationsByT1), t1Of(t3)) + {t3}]
      ensures added ==> combinationsByT2 == old(combinationsByT2)[t2Of(t3) := Bucket(old(combinationsByT2), t2Of(t3)) + {t3}]
      ensures added ==> Contents() == old(Contents()) + {t3}
      ensures !added ==> unchanged(this)
      ensures Get(t3) == Some(if added then t3 else old(combinationsMap)[Id(t3)])
    {
      if Id(t3) !in combinationsMap {
        InsertKeepsConsistent(combinationsMap, combinationsByT1, combinationsByT2, t3);
        combinationsMap := combinationsMap[Id(t3) := t3];
        var valueSet1 := if t1Of(t3) in combinationsByT1 then combinationsByT1[t1Of(t3)] else {};
        combinationsByT1 := combinationsByT1[t1Of(t3) := valueSet1 + {t3}];
        var valueSet2 := if t2Of(t3) in combinationsByT2 then combinationsByT2[t2Of(t3)] else {};
        combinationsByT2 := combinationsByT2[t2Of(t3) := valueSet2 + {t3}];
        return true;
      }
      return false;
    }

    /** `addAll`: adds the elements of `c` in order; reports whether any was newly added. */
    method AddAll(c: seq<T3>) returns (changed: bool)
      requires Valid()
      modifies this
      ensures Valid()
      ensures changed <==> exists j :: 0 <= j < |c| && Id(c[j]) !in old(combinationsMap)
      ensures combinationsMap == Inserted(old(combinationsMap), c)
    {
      changed := false;
      var i := 0;
      while i < |c|
        invariant 0 <= i <= |c|
        invariant Valid()
        invariant combinationsMap == Inserted(old(combinationsMap), c[..i])
        invariant changed <==> combinationsMap.Keys != old(combinationsMap).Keys
      {
        InsertedStep(old(combinationsMap), c, i);
        var itemAdded := Add(c[i]);
        if itemAdded { changed := true; }
        i := i + 1;
      }
      assert c[..i] == c;
      InsertedChanges(old(combinationsMap), c);
    }

    /**
     * The index `m` after Java's `forEach` over its buckets: in each bucket, keep the
     * members whose identity is in `ids` (when `retain`) or not in `ids` (otherwise).
     */
    method FilterBuckets<K>(m: map<K, set<T3>>, ids: set<Pair<T1, T2>>, retain: bool)
      returns (r: map<K, set<T3>>)
      ensures r == Filtered(m, ids, retain)
    {
      r := m;
      var todo := m.Keys;
      while todo != {}
        invariant todo <= m.Keys && r.Keys == m.Keys
        invariant forall k :: k in r ==> r[k] == if k in todo then m[k] else Keep(m[k], ids, retain)
        decreases todo
      {
        var k :| k in todo;
        r := r[k := Keep(r[k], ids, retain)];
        todo := todo - {k};
      }
    }

    /** `remove`: drops the combination equal to `o` from all three structures. */
    method Remove(o: T3) returns (removed: bool)
      requires Valid()
      modifies this
      ensures Valid()
      ensures removed <==> Id(o) in old(combinationsMap)
      ensures combinationsMap == old(combinationsMap) - {Id(o)}
      ensures combinationsByT1 == NonEmptyBuckets(Filtered(old(combinationsByT1), {Id(o)}, false))
      ensures combinationsByT2 == NonEmptyBuckets(Filtered(old(combinationsByT2), {Id(o)}, false))
      ensures Contents() == Keep(old(Contents()), {Id(o)}, false)
    {
      var ids := {Id(o)};
      PurgeKeepsConsistent(combinationsMap, combinationsByT1, combinationsByT2, ids, false);
      MinusIsKept(combinationsMap, ids);
      removed := Id(o) in combinationsMap;
      combinationsMap := combinationsMap - ids;
      combinationsByT1 := FilterBuckets(combinationsByT1, ids, false);
      combinationsByT2 := FilterBuckets(combinationsByT2, ids, false);
      combinationsByT1 := RemoveEmptySets(combinationsByT1);
      combinationsByT2 := RemoveEmptySets(combinationsByT2);
    }

    /** `removeAll`: drops every stored combination equal to an element of `c`. */
    method RemoveAll(c: set<T3>) returns (changed: bool)
      requires Valid()
      modifies this
      ensures Valid()
      ensures changed <==> exists x :: x in c && Id(x) in old(combinationsMap)
      ensures combinationsMap == old(combinationsMap) - set x | x in c :: Id(x)
      ensures combinationsByT1 == NonEmptyBuckets(Filtered(old(combinationsByT1), set x | x in c :: Id(x), false))
      ensures combinationsByT2 == NonEmptyBuckets(Filtered(old(combinationsByT2), set x | x in c :: Id(x), false))
      ensures Contents() == Keep(old(Contents()), set x | x in c :: Id(x), false)
    {
      var ids := set x | x in c :: Id(x);
      PurgeKeepsConsistent(combinationsMap, combinationsByT1, combinationsByT2, ids, false);
      MinusIsKept(combinationsMap, ids);
      changed := combinationsMap.Keys * ids != {};
      assert changed <==> exists x :: x in c && Id(x) in combinationsMap by {
        if changed {
          var k :| k in combinationsMap.Keys * ids;
          var x :| x in c && Id(x) == k;
        } else {
          forall x | x in c ensures Id(x) !in combinationsMap {
            assert Id(x) in ids;
            assert Id(x) !in combinationsMap.Keys * ids;
          }
        }
      }
      combinationsMap := combinationsMap - ids;
      combinationsByT1 := FilterBuckets(combinationsByT1, ids, false);
      combinationsByT2 := FilterBuckets(combinationsByT2, ids, false);
      combinationsByT1 := RemoveEmptySets(combinationsByT1);
      combinationsByT2 := RemoveEmptySets(combinationsByT2);
    }

    /** `retainAll`: keeps only the stored combinations equal to an element of `c`. */
    method RetainAll(c: set<T3>) returns (changed: bool)
      requires Valid()
      modifies this
      ensures Valid()
      ensures changed <==> exists k :: k in old(combinationsMap) && k !in set x | x in c :: Id(x)
      ensures combinationsMap == old(combinationsMap) - (old(combinationsMap).Keys - set x | x in c :: Id(x))
      ensures combinationsByT1 == NonEmptyBuckets(Filtered(old(combinationsByT1), set x | x in c :: Id(x), true))
      ensures combinationsByT2 == NonEmptyBuckets(Filtered(old(combinationsByT2), set x | x in c :: Id(x), true))
      ensures Contents() == Keep(old(Contents()), set x | x in c :: Id(x), true)
    {
      var ids := set x | x in c :: Id(x);
      PurgeKeepsConsistent(combinationsMap, combinationsByT1, combinationsByT2, ids, true);
      MinusIsKept(combinationsMap, ids);
      changed := combinationsMap.Keys - ids != {};
      assert changed <==> exists k :: k in combinationsMap && k !in ids by {
        if changed {
          var k :| k in combinationsMap.Keys - ids;
        } else {
          forall k | k in combinationsMap ensures k in ids {
            assert k !in combinationsMap.Keys - ids;
          }
        }
      }
      combinationsMap := combinationsMap - (combinationsMap.Keys - ids);
      combinationsByT1 := FilterBuckets(combinationsByT1, ids, true);
      combinationsByT2 := FilterBuckets(combinationsByT2, ids, true);
      combinationsByT1 := RemoveEmptySets(combinationsByT1);
      combinationsByT2 := RemoveEmptySets(combinationsByT2);
    }

    /** `clear`: empties all three structures. */
    method Clear()
      requires Valid()
      modifies this
      ensures Valid()
      ensures combinationsMap == map[] && combinationsByT1 == map[] && combinationsByT2 == map[]
    {
      combinationsMap := map[];
      combinationsByT1 := map[];
      combinationsByT2 := map[];
    }

    /**
     * `getT3Ordered`: the stored combinations, ordered by first endpoint and then by
     * second endpoint.
     */
    method GetT3Ordered() returns (ordered: seq<T3>)
      requires Valid() && TotalOrder(leq1) && TotalOrder(leq2)
      ensures multiset(ordered) == multiset(Contents())
      ensures Sorted(ordered, ComparingThen(t1Of, leq1, t2Of, leq2))
    {
      var orderedList := SetToSequence(combinationsMap.Values);
      var cmp := ComparingThen(t1Of, leq1, t2Of, leq2);
      ComparingThenOrders(t1Of, leq1, t2Of, leq2, combinationsMap.Values);
      assert Within(orderedList, combinationsMap.Values) by {
        forall i | 0 <= i < |orderedList| ensures orderedList[i] in combinationsMap.Values {
          assert orderedList[i] in multiset(orderedList);
        }
      }
      SortBySorted(orderedList, cmp, combinationsMap.Values);
      ordered := SortBy(orderedList, cmp);
    }

    /**
     * The ordered view is determined by the stored set alone: any two sorted arrangements of
     * the stored combinations are the same sequence, whatever order they were added in.
     */
    lemma {:induction false} OrderedIsUnique(a: seq<T3>, b: seq<T3>)
      requires Valid() && TotalOrder(leq1) && TotalOrder(leq2)
      requires multiset(a) == multiset(Contents()) && multiset(b) == multiset(Contents())
      requires Sorted(a, ComparingThen(t1Of, leq1, t2Of, leq2))
      requires Sorted(b, ComparingThen(t1Of, leq1, t2Of, leq2))
      ensures a == b
    {
      var cmp := ComparingThen(t1Of, leq1, t2Of, leq2);
      var dom := combinationsMap.Values;
      ComparingThenOrders(t1Of, leq1, t2Of, leq2, dom);
      forall x, y | x in dom && y in dom && cmp(x, y) && cmp(y, x) ensures x == y {
        StoredIsCanonical(x);
        StoredIsCanonical(y);
      }
      forall i | 0 <= i < |a| ensures a[i] in dom { assert a[i] in multiset(a); }
      forall i | 0 <= i < |b| ensures b[i] in dom { assert b[i] in multiset(b); }
      SortedUnique(a, b, cmp, dom);
    }
  }
}

=== FILE: gene_disease.dfy ===
/**
 * Evidence aggregation on one gene-disease pair: a per-source occurrence counter, a
 * per-source list of evidence URIs kept in the order they were added, and three views
 * of the evidence (deduplicated, sorted, and with PubMed URIs reduced to their number).
 */
module GeneDisease {
  import opened Wrappers
  import opened Orders

  /** A URI, in its string form (`URI.toString`). */
  type Uri = string

  /** The URI prefix of a PubMed record; it is 30 characters long. */
  const PubmedPrefix: string := "http://identifiers.org/pubmed/"

  /**
   * The simplified form of one evidence string: a PubMed URI becomes the text after its
   * 30-character prefix (`substring(30)`), anything else is kept whole.
   */
  function Simplify(s: string): (r: string)
    ensures PubmedPrefix <= s ==> PubmedPrefix + r == s
    ensures !(PubmedPrefix <= s) ==> r == s
  {
    if PubmedPrefix <= s then s[30..] else s
  }

  /** Simplifying takes a PubMed URI back to the record number it was built from. */
  lemma {:induction false} SimplifyPubmed(number: string)
    ensures Simplify(PubmedPrefix + number) == number
  {
    assert PubmedPrefix <= PubmedPrefix + number;
    assert (PubmedPrefix + number)[30..] == number;
  }

  /** Every element of any of the lists in `m`: the union of the lists, duplicates removed. */
  ghost function Flatten<K, U>(m: map<K, seq<U>>): set<U>
  {
    set k, u | k in m && u in m[k] :: u
  }

  /** How many elements of `s` simplify to `v`. */
  ghost function Preimages(s: set<Uri>, v: string): nat
  {
    |set u | u in s && Simplify(u) == v|
  }

  /** One more URI, not counted before, adds one to the count of its simplified form only. */
  lemma PreimagesAdd(s: set<Uri>, x: Uri, v: string)
    requires x !in s
    ensures Preimages(s + {x}, v) == Preimages(s, v) + (if Simplify(x) == v then 1 else 0)
  {
    var before := set u | u in s && Simplify(u) == v;
    var after := set u | u in s + {x} && Simplify(u) == v;
    if Simplify(x) == v {
      assert after == before + {x};
    } else {
      assert after == before;
    }
  }

  /** Some URI of `s` simplifies to `v` exactly when the count of `v` is positive. */
  lemma PreimagesPositive(s: set<Uri>, v: string)
    ensures Preimages(s, v) > 0 <==> exists u :: u in s && Simplify(u) == v
  {
    var matching := set u | u in s && Simplify(u) == v;
    if exists u :: u in s && Simplify(u) == v {
      var u :| u in s && Simplify(u) == v;
      assert u in matching;
    } else {
      assert matching == {};
    }
  }

  /**
   * `simplifyEvidence` into a list: one simplified string per URI of `allSourceUris`, so a
   * string occurs as often as there are URIs that simplify to it.
   */
  method SimplifyEvidence(allSourceUris: set<Uri>) returns (simplifiedSources: seq<string>)
    ensures |simplifiedSources| == |allSourceUris|
    ensures forall v :: multiset(simplifiedSources)[v] == Preimages(allSourceUris, v)
    ensures forall v :: v in simplifiedSources <==> exists u :: u in allSourceUris && Simplify(u) == v
  {
    simplifiedSources := [];
    var todo := allSourceUris;
    ghost var done: set<Uri> := {};
    while todo != {}
      invariant done + todo == allSourceUris && done !! todo
      invariant |simplifiedSources| == |done|
      invariant forall v :: multiset(simplifiedSources)[v] == Preimages(done, v)
      decreases todo
    {
      var source :| source in todo;
      forall v ensures multiset(simplifiedSources + [Simplify(source)])[v] == Preimages(done + {source}, v) {
        PreimagesAdd(done, source, v);
      }
      simplifiedSources := simplifiedSources + [Simplify(source)];
      done := done + {source};
      todo := todo - {source};
    }
    forall v ensures v in simplifiedSources <==> exists u :: u in allSourceUris && Simplify(u) == v {
      PreimagesPositive(allSourceUris, v);
    }
  }

  class GeneDiseaseCombination<Gene, Disease, Source(==, !new)> {
    const gene: Gene
    const disease: Disease
    /** The DisGeNET score; absent when built with the two-argument constructor. */
    const disgenetScore: Option<real>

    /** How often each source reported this gene-disease pair. */
    var sourcesCount: map<Source, int>
    /** Per source, the evidence URIs in the order they were added. */
    var sourcesEvidence: map<Source, seq<Uri>>

    /**
     * Only sources with a count have evidence, every stored count is at least 1 and a
     * source never holds more evidence than its count (each evidence came with one add).
     */
    ghost predicate Valid()
      reads this
    {
      && sourcesEvidence.Keys <= sourcesCount.Keys
      && (forall s :: s in sourcesCount ==> sourcesCount[s] >= 1)
      && (forall s :: s in sourcesEvidence ==> 1 <= |sourcesEvidence[s]| <= sourcesCount[s])
    }

    /** All evidence of all sources, duplicates removed. */
    ghost function AllEvidence(): set<Uri>
      reads this
    {
      Flatten(sourcesEvidence)
    }

    /** A pair with no score, no sources and no evidence. */
    constructor (gene: Gene, disease: Disease)
      ensures Valid()
      ensures this.gene == gene && this.disease == disease && disgenetScore == None
      ensures sourcesCount == map[] && sourcesEvidence == map[]
    {
      this.gene, this.disease, disgenetScore := gene, disease, None;
      sourcesCount, sourcesEvidence := map[], map[];
    }

    /** A pair with a DisGeNET score, no sources and no evidence. */
    constructor WithScore(gene: Gene, disease: Disease, disgenetScore: real)
      ensures Valid()
      ensures this.gene == gene && this.disease == disease && this.disgenetScore == Some(disgenetScore)
      ensures sourcesCount == map[] && sourcesEvidence == map[]
    {
      this.gene, this.disease, this.disgenetScore := gene, disease, Some(disgenetScore);
      sourcesCount, sourcesEvidence := map[], map[];
    }

    /** `getDisgenetScore`: unboxes the score, so a pair built without one cannot answer. */
    function GetDisgenetScore(): (score: real)
      requires disgenetScore.Some?
      ensures disgenetScore == Some(score)
    {
      disgenetScore.value
    }

    /** `getCountForSource`: how often `source` was added; 0 for a source never added. */
    function GetCountForSource(source: Source): (count: int)
      reads this
      requires Valid()
      ensures count == 0 <==> source !in sourcesCount
      ensures source in sourcesCount ==> count == sourcesCount[source]
      ensures count >= 0
    {
      if source in sourcesCount then sourcesCount[source] else 0
    }

    /** `getSourcesWithCount`: the sources added at least once. */
    function GetSourcesWithCount(): (sources: set<Source>)
      reads this
      requires Valid()
      ensures forall s :: s in sources <==> GetCountForSource(s) > 0
    {
      sourcesCount.Keys
    }

    /** `getEvidenceForSource`: the evidence of `source` in insertion order, or absent (null) when it has none. */
    function GetEvidenceForSource(source: Source): (evidence: Option<seq<Uri>>)
      reads this
      requires Valid()
      ensures evidence.None? <==> source !in sourcesEvidence
      ensures evidence.Some? ==> evidence.value == sourcesEvidence[source] && evidence.value != []
      ensures evidence.Some? ==> |evidence.value| <= GetCountForSource(source)
    {
      if source in sourcesEvidence then Some(sourcesEvidence[source]) else None
    }

    /** `getSourcesWithEvidence`: the sources that have evidence, all of which have a count. */
    function GetSourcesWithEvidence(): (sources: set<Source>)
      reads this
      requires Valid()
      ensures forall s :: s in sources <==> GetEvidenceForSource(s).Some?
      ensures sources <= GetSourcesWithCount()
    {
      sourcesEvidence.Keys
    }

    /** `add(source)`: one more occurrence of `source`; the evidence is untouched. */
    method Add(source: Source)
      requires Valid()
      modifies this
      ensures Valid()
      ensures sourcesCount == old(sourcesCount)[source := old(GetCountForSource(source)) + 1]
      ensures sourcesEvidence == old(sourcesEvidence)
    {
      if source !in sourcesCount {
        sourcesCount := sourcesCount[source := 1];
      } else {
        var count := sourcesCount[source];
        sourcesCount := sourcesCount[source := count + 1];
      }
    }

    /**
     * `add(source, evidence)`: one more occurrence of `source`, and `evidence` appended to
     * the end of its list (creating the list when missing; duplicates are kept).
     */
    method AddWithEvidence(source: Source, evidence: Uri)
      requires Valid()
      modifies this
      ensures Valid()
      ensures sourcesCount == old(sourcesCount)[source := old(GetCountForSource(source)) + 1]
      ensures sourcesEvidence == old(sourcesEvidence)[source := EvidenceOrEmpty(old(sourcesEvidence), source) + [evidence]]
      ensures AllEvidence() == old(AllEvidence()) + {evidence}
    {
      Add(source);
      var evidenceList := if source in sourcesEvidence then sourcesEvidence[source] else [];
      AppendGrowsFlatten(sourcesEvidence, source, evidence);
      sourcesEvidence := sourcesEvidence[source := evidenceList + [evidence]];
    }

    /** The evidence list of `source` in `m`, empty when it has none. */
    static function EvidenceOrEmpty(m: map<Source, seq<Uri>>, source: Source): seq<Uri>
    {
      if source in m then m[source] else []
    }

    /** Appending one URI to one source's list adds exactly that URI to the union of all lists. */
    static lemma {:induction false} AppendGrowsFlatten(m: map<Source, seq<Uri>>, source: Source, e: Uri)
      ensures Flatten(m[source := EvidenceOrEmpty(m, source) + [e]]) == Flatten(m) + {e}
    {
      var m' := m[source := EvidenceOrEmpty(m, source) + [e]];
      forall u | u in Flatten(m) ensures u in Flatten(m') {
        var k :| k in m && u in m[k];
        if k == source {
          assert u in m'[source];
        } else {
          assert u in m'[k];
        }
      }
      assert e in m'[source];
      forall u | u in Flatten(m') ensures u in Flatten(m) + {e} {
        var k :| k in m' && u in m'[k];
        if k == source && u != e {
          assert u in m[source];
        }
      }
    }

    /** `getAllEvidence`: the union of the evidence lists of all sources. */
    method GetAllEvidence() returns (allSources: set<Uri>)
      ensures allSources == AllEvidence()
    {
      allSources := {};
      var todo := sourcesEvidence.Keys;
      while todo != {}
        invariant todo <= sourcesEvidence.Keys
        invariant allSources == set k, u | k in sourcesEvidence && k !in todo && u in sourcesEvidence[k] :: u
        decreases todo
      {
        var source :| source in todo;
        allSources := allSources + set u | u in sourcesEvidence[source];
        todo := todo - {source};
      }
    }

    /**
     * `getAllEvidenceOrdered`: every evidence URI once, ascending in the URI order `uriLeq`
     * (`URI.compareTo`).
     */
    method GetAllEvidenceOrdered(uriLeq: (Uri, Uri) -> bool) returns (sources: seq<Uri>)
      requires TotalOrder(uriLeq)
      ensures multiset(sources) == multiset(AllEvidence())
      ensures Sorted(sources, uriLeq)
      ensures forall i, j :: 0 <= i < j < |sources| ==> sources[i] != sources[j]
    {
      var all := GetAllEvidence();
      var list := SetToSequence(all);
      assert Within(list, all) by {
        forall i | 0 <= i < |list| ensures list[i] in all {
          assert list[i] in multiset(list);
        }
      }
      TotalOrderOn(uriLeq, all);
      SortBySorted(list, uriLeq, all);
      sources := SortBy(list, uriLeq);
      SetSequenceDistinct(sources, all);
    }

    /** `getAllEvidenceSimplified`: the simplified forms of all evidence, as a set. */
    method GetAllEvidenceSimplified() returns (simplifiedSources: set<string>)
      ensures simplifiedSources == set u | u in AllEvidence() :: Simplify(u)
    {
      var all := GetAllEvidence();
      var list := SimplifyEvidence(all);
      simplifiedSources := set v | v in list;
    }

    /**
     * `getAllEvidenceSimplifiedOrdered`: the simplified form of each evidence URI, sorted
     * by `String.compareTo`. It holds one entry per URI, so two URIs that simplify alike
     * give a repeated entry.
     */
    method GetAllEvidenceSimplifiedOrdered() returns (simplifiedSources: seq<string>)
      ensures |simplifiedSources| == |AllEvidence()|
      ensures forall v :: multiset(simplifiedSources)[v] == Preimages(AllEvidence(), v)
      ensures Sorted(simplifiedSources, StringLeq)
    {
      var all := GetAllEvidence();
      var list := SimplifyEvidence(all);
      var dom := set v | v in list;
      StringLeqIsTotalOrder();
      TotalOrderOn(StringLeq, dom);
      SortBySorted(list, StringLeq, dom);
      simplifiedSources := SortBy(list, StringLeq);
    }
  }

  /**
   * A source that reports a pair twice with PubMed evidence 8630510 and then 7678608 has
   * count 2 and exactly those two URIs, in that order.
   */
  method TwoEvidenceAdds<Gene, Disease, Source(==, !new)>(gene: Gene, disease: Disease, source: Source, score: real)
    returns (c: GeneDiseaseCombination<Gene, Disease, Source>)
    ensures c.Valid()
    ensures c.GetCountForSource(source) == 2
    ensures c.GetEvidenceForSource(source)
            == Some([PubmedPrefix + "8630510", PubmedPrefix + "7678608"])
  {
    c := new GeneDiseaseCombination.WithScore(gene, disease, score);
    c.AddWithEvidence(source, PubmedPrefix + "8630510");
    assert c.sourcesEvidence[source] == [PubmedPrefix + "8630510"];
    assert c.sourcesCount[source] == 1;
    c.AddWithEvidence(source, PubmedPrefix + "7678608");
    assert c.sourcesCount[source] == 2;
    assert c.sourcesEvidence[source] == [PubmedPrefix + "8630510", PubmedPrefix + "7678608"];
  }
}

=== FILE: hpo.dfy ===
/**
 * HPO terms: a term is written `hp:` followed by exactly seven ASCII digits, or as the
 * seven digits alone (the pattern `^(hp:)?([0-9]{7})$`); the term keeps only the digits.
 */
module HpoTerms {
  import opened Wrappers

  const Prefix: string := "hp:"

  /** The message of the `InvalidStringFormatException` thrown for a malformed term. */
  function FormatMessage(hpoTerm: string): string
  {
    hpoTerm + " does not adhere the required format: ^(hp:)?([0-9]{7})$"
  }

  predicate IsDigit(c: char)
  {
    '0' <= c <= '9'
  }

  /** Exactly seven ASCII digits: `[0-9]{7}`. */
  predicate IsIdNumbers(s: string)
  {
    |s| == 7 && forall i :: 0 <= i < |s| ==> IsDigit(s[i])
  }

  /** The numbers of an HPO id; every id has length 7 and consists only of digits. */
  type IdNumbers = s: string | IsIdNumbers(s) witness "0000000"

  /** The whole of `s` matches `^(hp:)?([0-9]{7})$`. */
  ghost predicate MatchesPattern(s: string)
  {
    exists d: string :: IsIdNumbers(d) && (s == d || s == Prefix + d)
  }

  /**
   * `retrieveIdNumbers`: the seven digits (the second regex group) of a matching term, or
   * the format error naming the term.
   */
  function RetrieveIdNumbers(hpoTerm: string): (r: Result<IdNumbers, InvalidStringFormat>)
    ensures r.Success? <==> MatchesPattern(hpoTerm)
    ensures r.Success? ==> hpoTerm == r.value || hpoTerm == Prefix + r.value
    ensures r.Failure? ==> r.error == InvalidStringFormat(FormatMessage(hpoTerm))
  {
    if IsIdNumbers(hpoTerm) then
      Success(hpoTerm)
    else if |hpoTerm| == 10 && hpoTerm[..3] == Prefix && IsIdNumbers(hpoTerm[3..]) then
      assert hpoTerm == Prefix + hpoTerm[3..];
      Success(hpoTerm[3..])
    else
      assert !MatchesPattern(hpoTerm) by {
        if d: string :| IsIdNumbers(d) && (hpoTerm == d || hpoTerm == Prefix + d) {
          assert hpoTerm[3..] == d;
        }
      }
      Failure(InvalidStringFormat(FormatMessage(hpoTerm)))
  }

  /** An HPO term, identified by its seven digits. */
  datatype Hpo = Hpo(id: IdNumbers)
  {
    /** `getId` */
    function GetId(): (r: string)
      ensures IsIdNumbers(r)
    {
      id
    }

    /** `getFormattedId`: the id with the `hp:` prefix, itself a term that parses back to the id. */
    function GetFormattedId(): (r: string)
      ensures |r| == 10 && r[..3] == Prefix && r[3..] == GetId()
      ensures RetrieveIdNumbers(r) == Success(id)
    {
      var r := Prefix + id;
      assert r[3..] == id;
      r
    }

    /** `equals` as intended: two terms are equal exactly when their digits are. */
    predicate Equals(other: Hpo)
      ensures Equals(other) <==> this == other
    {
      id == other.id
    }
  }

  /** `new Hpo(term)`: the term's digits, or the format error. */
  function NewHpo(hpoTerm: string): (r: Result<Hpo, InvalidStringFormat>)
    ensures r.Success? <==> MatchesPattern(hpoTerm)
    ensures r.Success? ==> RetrieveIdNumbers(hpoTerm) == Success(r.value.GetId())
    ensures r.Failure? ==> r.error == InvalidStringFormat(FormatMessage(hpoTerm))
  {
    match RetrieveIdNumbers(hpoTerm)
    case Success(d) => Success(Hpo(d))
    case Failure(e) => Failure(e)
  }

  /** `hp:` followed by seven digits is accepted, and the id is those digits. */
  lemma AcceptsPrefixed(d: string)
    requires IsIdNumbers(d)
    ensures NewHpo(Prefix + d) == Success(Hpo(d))
  {
  }

  /** Seven digits alone are accepted with the same id. */
  lemma AcceptsBare(d: string)
    requires IsIdNumbers(d)
    ensures NewHpo(d) == Success(Hpo(d))
  {
  }

  /** Re-parsing the formatted id, or the bare id, gives back the same term. */
  lemma RoundTrip(h: Hpo)
    ensures NewHpo(h.GetFormattedId()) == Success(h)
    ensures NewHpo(h.GetId()) == Success(h)
  {
  }

  /** The upper-case prefix `HP:` is rejected. */
  lemma RejectsUpperCasePrefix(d: string)
    requires IsIdNumbers(d)
    ensures NewHpo("HP:" + d).Failure?
  {
  }

  /** A term of any length but 7 or 10 is rejected. */
  lemma RejectsLength(s: string)
    requires |s| != 7 && |s| != 10
    ensures NewHpo(s) == Failure(InvalidStringFormat(FormatMessage(s)))
  {
  }

  /** A term whose last seven characters are not all digits is rejected. */
  lemma RejectsNonDigit(s: string, i: int)
    requires |s| >= 7 && |s| - 7 <= i < |s| && !IsDigit(s[i])
    ensures NewHpo(s).Failure?
  {
  }

  /** The intended `equals` holds exactly for terms with the same digits, whatever text they came from. */
  lemma EqualsMatchesIds(t1: string, t2: string)
    requires NewHpo(t1).Success? && NewHpo(t2).Success?
    ensures NewHpo(t1).value.Equals(NewHpo(t2).value) <==> NewHpo(t1).value.GetId() == NewHpo(t2).value.GetId()
    ensures NewHpo(t1).value.Equals(NewHpo(t2).value) <==> NewHpo(t1).value == NewHpo(t2).value
  {
  }

  /**
   * A Java `String` object: its characters and the identity of the object holding them
   * (what `==` on two strings compares).
   */
  datatype StringRef = StringRef(chars: string, ref: nat)

  /** An `Hpo` object as the source's `equals` sees it: its own identity and its id string object. */
  datatype HpoObject = HpoObject(obj: nat, id: StringRef)

  /**
   * `new Hpo(term)` on string objects. The second regex group of a bare term spans the
   * whole input, so the input object itself is returned; for a prefixed term it is a new
   * string object, given identity `newRef`.
   */
  function NewHpoObject(term: StringRef, obj: nat, newRef: nat): (r: Result<HpoObject, InvalidStringFormat>)
    ensures r.Success? <==> MatchesPattern(term.chars)
    ensures r.Success? ==> r.value.obj == obj && NewHpo(term.chars).Success? && NewHpo(term.chars).value.GetId() == r.value.id.chars
    ensures r.Success? && term.chars == r.value.id.chars ==> r.value.id == term
    ensures r.Success? && term.chars != r.value.id.chars ==> r.value.id.ref == newRef
  {
    match RetrieveIdNumbers(term.chars)
    case Success(d) => Success(HpoObject(obj, StringRef(d, if d == term.chars then term.ref else newRef)))
    case Failure(e) => Failure(e)
  }

  /** `equals` as written: the same object, or id strings that are the same object. */
  predicate EqualsAsWritten(a: HpoObject, b: HpoObject)
    ensures a == b ==> EqualsAsWritten(a, b)
    ensures a.id == b.id ==> EqualsAsWritten(a, b)
  {
    a.obj == b.obj || a.id.ref == b.id.ref
  }

  /** String objects with the same identity hold the same characters, as in any Java heap. */
  ghost predicate StringsCoherent(ss: set<StringRef>)
  {
    forall x, y :: x in ss && y in ss && x.ref == y.ref ==> x.chars == y.chars
  }

  /** `Hpo` objects with the same identity hold the same id object, and their id strings are coherent. */
  ghost predicate ObjectsCoherent(os: set<HpoObject>)
  {
    && StringsCoherent(set o | o in os :: o.id)
    && forall a, b :: a in os && b in os && a.obj == b.obj ==> a.id == b.id
  }

  /** On coherent objects, the written `equals` only reports terms with equal ids. */
  lemma {:induction false} EqualsAsWrittenSound(a: HpoObject, b: HpoObject)
    requires ObjectsCoherent({a, b})
    ensures EqualsAsWritten(a, b) ==> a.id.chars == b.id.chars
  {
    assert a.id in (set o | o in {a, b} :: o.id);
    assert b.id in (set o | o in {a, b} :: o.id);
  }

  /**
   * Constructing from a string object of a coherent heap, with a fresh identity for a new
   * substring, leaves the heap of string objects coherent.
   */
  lemma {:induction false} NewHpoObjectCoherent(ss: set<StringRef>, term: StringRef, obj: nat, newRef: nat)
    requires StringsCoherent(ss) && term in ss
    requires forall x :: x in ss ==> x.ref != newRef
    requires NewHpoObject(term, obj, newRef).Success?
    ensures StringsCoherent(ss + {NewHpoObject(term, obj, newRef).value.id})
  {
    var id := NewHpoObject(term, obj, newRef).value.id;
    forall x, y | x in ss + {id} && y in ss + {id} && x.ref == y.ref
      ensures x.chars == y.chars
    {
      if id != term {
        assert id.ref == newRef;
      }
    }
  }

  /**
   * Two `Hpo` objects made from the same prefixed term get id strings with the same digits
   * but in different string objects, so the written `equals` reports them as different.
   */
  lemma EqualsAsWrittenMissesEqualIds()
    ensures var term := StringRef("hp:0000001", 0);
            var a := NewHpoObject(term, 1, 2);
            var b := NewHpoObject(term, 3, 4);
            && a.Success? && b.Success?
            && a.value.id.chars == b.value.id.chars
            && !EqualsAsWritten(a.value, b.value)
            && Hpo(a.value.id.chars).Equals(Hpo(b.value.id.chars))
  {
  }
}

=== FILE: options.dfy ===
/**
 * The options parser: the settings a run of the application collects from user input, the
 * setters that validate and store them, and the check that the settings fit the run mode.
 * Paths, output format factories and phenotype retriever factories are opaque values; the
 * file-system tests the setters make are given to them as booleans, and turning a string
 * into a phenotype is a function supplied when the parser is made.
 */
module Options {
  import opened Wrappers

  /** The operation the application performs. */
  datatype RunMode = NoneMode | GenesForPhenotypesWithAssociatedPhenotypes | GenesForPhenotypes

  /** The gene prioritizer; the parser only ever selects the highest-DisGeNET-score one. */
  datatype GenePrioritizerFactory = HighestDisgenetScore

  /** Where output goes: a file at a path, or standard output. */
  datatype OutputWriter<Path> = FileOutputWriter(path: Path) | StdoutOutputWriter

  /** The `IOException`s the path setters throw. */
  datatype IoError<Path> = NotAReadableFile(path: Path) | NotADirectory(path: Path) | FileAlreadyExists(path: Path)

  /** A snapshot of every setting; `None` stands for a field that is still `null`. */
  datatype Config<Path, Phenotype, FormatFactory, RetrieverFactory> = Config(
    verbose: bool,
    runMode: RunMode,
    hpoOntology: Option<Path>,
    database: Option<Path>,
    phenotypes: set<Phenotype>,
    outputWriter: Option<OutputWriter<Path>>,
    genePrioritizedOutputFormatWriterFactory: Option<FormatFactory>,
    phenotypesRetrieverFactory: Option<RetrieverFactory>,
    ontologyMaxDistance: Option<int>,
    genePrioritizerFactory: Option<GenePrioritizerFactory>)

  /** The settings every run mode other than NONE needs. */
  predicate CommonSettingsSet<P, Ph, F, R>(c: Config<P, Ph, F, R>)
  {
    && c.database.Some?
    && c.outputWriter.Some?
    && c.genePrioritizedOutputFormatWriterFactory.Some?
    && c.genePrioritizerFactory.Some?
  }

  /** The extra settings needed to retrieve phenotypes associated to the input phenotypes. */
  predicate AssociatedSettingsSet<P, Ph, F, R>(c: Config<P, Ph, F, R>)
  {
    c.phenotypesRetrieverFactory.Some? && c.hpoOntology.Some? && c.ontologyMaxDistance.Some?
  }

  /** What each run mode requires of the settings. */
  predicate Adheres<P, Ph, F, R>(c: Config<P, Ph, F, R>)
  {
    match c.runMode
    case NoneMode => true
    case GenesForPhenotypes => CommonSettingsSet(c) && c.phenotypes != {}
    case GenesForPhenotypesWithAssociatedPhenotypes =>
      CommonSettingsSet(c) && AssociatedSettingsSet(c) && c.phenotypes != {}
  }

  /** With run mode NONE the settings always adhere, whatever they hold. */
  lemma NoneModeAdheres<P, Ph, F, R>(c: Config<P, Ph, F, R>)
    requires c.runMode == NoneMode
    ensures Adheres(c)
  {
  }

  /** In any other run mode a missing database, output writer, format factory or prioritizer is refused. */
  lemma MissingCommonSettingRefused<P, Ph, F, R>(c: Config<P, Ph, F, R>)
    requires c.runMode != NoneMode
    requires c.database.None? || c.outputWriter.None? || c.genePrioritizedOutputFormatWriterFactory.None? || c.genePrioritizerFactory.None?
    ensures !Adheres(c)
  {
  }

  /** Run mode GENES_FOR_PHENOTYPES accepts exactly the common settings plus some phenotype. */
  lemma GenesForPhenotypesAdheres<P, Ph, F, R>(c: Config<P, Ph, F, R>)
    requires c.runMode == GenesForPhenotypes
    ensures Adheres(c) <==> CommonSettingsSet(c) && c.phenotypes != {}
  {
  }

  /**
   * Run mode GENES_FOR_PHENOTYPES_WITH_ASSOCIATED_PHENOTYPES accepts exactly the common and
   * associated-phenotype settings plus some phenotype.
   */
  lemma AssociatedPhenotypesAdheres<P, Ph, F, R>(c: Config<P, Ph, F, R>)
    requires c.runMode == GenesForPhenotypesWithAssociatedPhenotypes
    ensures Adheres(c) <==> CommonSettingsSet(c) && AssociatedSettingsSet(c) && c.phenotypes != {}
  {
  }

  /**
   * The associated-phenotypes mode asks for everything GENES_FOR_PHENOTYPES asks for: its
   * checks fall through into those of the plainer mode.
   */
  lemma AssociatedModeIncludesPlainMode<P, Ph, F, R>(c: Config<P, Ph, F, R>)
    requires c.runMode == GenesForPhenotypesWithAssociatedPhenotypes
    ensures Adheres(c) <==> AssociatedSettingsSet(c) && Adheres(c.(runMode := GenesForPhenotypes))
  {
  }

  class OptionsParser<Path, Phenotype(==), FormatFactory, RetrieverFactory> {
    /** The `Phenotype(String)` constructor: a phenotype, or the format error for the string. */
    const parsePhenotype: string -> Result<Phenotype, InvalidStringFormat>

    var verbose: bool
    var runMode: RunMode
    var hpoOntology: Option<Path>
    var database: Option<Path>
    var phenotypes: set<Phenotype>
    var outputWriter: Option<OutputWriter<Path>>
    var genePrioritizedOutputFormatWriterFactory: Option<FormatFactory>
    var phenotypesRetrieverFactory: Option<RetrieverFactory>
    var ontologyMaxDistance: Option<int>
    var genePrioritizerFactory: Option<GenePrioritizerFactory>

    function Settings(): Config<Path, Phenotype, FormatFactory, RetrieverFactory>
      reads this
    {
      Config(verbose, runMode, hpoOntology, database, phenotypes, outputWriter,
        genePrioritizedOutputFormatWriterFactory, phenotypesRetrieverFactory, ontologyMaxDistance,
        genePrioritizerFactory)
    }

    /** The field defaults: run mode NONE, no phenotypes, the highest-DisGeNET-score prioritizer. */
    constructor (parsePhenotype: string -> Result<Phenotype, InvalidStringFormat>)
      ensures this.parsePhenotype == parsePhenotype
      ensures Settings() == Config(false, NoneMode, None, None, {}, None, None, None, None, Some(HighestDisgenetScore))
      ensures Adheres(Settings())
    {
      this.parsePhenotype := parsePhenotype;
      verbose := false;
      runMode := NoneMode;
      hpoOntology := None;
      database := None;
      phenotypes := {};
      outputWriter := None;
      genePrioritizedOutputFormatWriterFactory := None;
      phenotypesRetrieverFactory := None;
      ontologyMaxDistance := None;
      genePrioritizerFactory := Some(HighestDisgenetScore);
    }

    method SetVerbose(verbose: bool)
      modifies this
      ensures Settings() == old(Settings()).(verbose := verbose)
    {
      this.verbose := verbose;
    }

    method SetRunMode(runMode: RunMode)
      modifies this
      ensures Settings() == old(Settings()).(runMode := runMode)
    {
      this.runMode := runMode;
    }

    /** Stores the ontology path only when it names a readable regular file. */
    method SetHpoOntology(path: Path, isReadableFile: bool) returns (r: Result<(), IoError<Path>>)
      modifies this
      ensures isReadableFile ==> r.Success? && Settings() == old(Settings()).(hpoOntology := Some(path))
      ensures !isReadableFile ==> r == Failure(NotAReadableFile(path)) && Settings() == old(Settings())
    {
      if isReadableFile {
        hpoOntology := Some(path);
        return Success(());
      } else {
        return Failure(NotAReadableFile(path));
      }
    }

    /** Stores the database path only when it names a directory. */
    method SetDatabase(path: Path, isDirectory: bool) returns (r: Result<(), IoError<Path>>)
      modifies this
      ensures isDirectory ==> r.Success? && Settings() == old(Settings()).(database := Some(path))
      ensures !isDirectory ==> r == Failure(NotADirectory(path)) && Settings() == old(Settings())
    {
      if isDirectory {
        database := Some(path);
        return Success(());
      } else {
        return Failure(NotADirectory(path));
      }
    }

    /** Writes output to a file, refusing a path that already is a readable regular file. */
    method SetFileOutputWriter(path: Path, isReadableFile: bool) returns (r: Result<(), IoError<Path>>)
      modifies this
      ensures isReadableFile ==> r == Failure(FileAlreadyExists(path)) && Settings() == old(Settings())
      ensures !isReadableFile ==> r.Success? && Settings() == old(Settings()).(outputWriter := Some(FileOutputWriter(path)))
    {
      if isReadableFile {
        return Failure(FileAlreadyExists(path));
      }
      outputWriter := Some(FileOutputWriter(path));
      return Success(());
    }

    method SetStdoutOutputWriter()
      modifies this
      ensures Settings() == old(Settings()).(outputWriter := Some(StdoutOutputWriter))
    {
      outputWriter := Some(StdoutOutputWriter);
    }

    method SetGenePrioritizedOutputFormatWriterFactory(factory: Option<FormatFactory>)
      modifies this
      ensures Settings() == old(Settings()).(genePrioritizedOutputFormatWriterFactory := factory)
    {
      genePrioritizedOutputFormatWriterFactory := factory;
    }

    method SetPhenotypesRetrieverFactory(factory: Option<RetrieverFactory>)
      modifies this
      ensures Settings() == old(Settings()).(phenotypesRetrieverFactory := factory)
    {
      phenotypesRetrieverFactory := factory;
    }

    method SetOntologyMaxDistance(distance: int)
      modifies this
      ensures Settings() == old(Settings()).(ontologyMaxDistance := Some(distance))
    {
      ontologyMaxDistance := Some(distance);
    }

    method SetPhenotypes(phenotypes: set<Phenotype>)
      modifies this
      ensures Settings() == old(Settings()).(phenotypes := phenotypes)
    {
      this.phenotypes := phenotypes;
    }

    method AddPhenotypes(phenotypes: set<Phenotype>)
      modifies this
      ensures Settings() == old(Settings()).(phenotypes := old(this.phenotypes) + phenotypes)
    {
      this.phenotypes := this.phenotypes + phenotypes;
    }

    method AddPhenotype(phenotype: Phenotype)
      modifies this
      ensures Settings() == old(Settings()).(phenotypes := old(phenotypes) + {phenotype})
    {
      phenotypes := phenotypes + {phenotype};
    }

    /** Every string converts into a phenotype. */
    predicate AllParse(ps: seq<string>)
    {
      forall j :: 0 <= j < |ps| ==> parsePhenotype(ps[j]).Success?
    }

    /** The phenotypes the strings convert into. */
    ghost function Parsed(ps: seq<string>): set<Phenotype>
      requires AllParse(ps)
    {
      set j | 0 <= j < |ps| :: parsePhenotype(ps[j]).value
    }

    /** The index of the first string that does not convert into a phenotype, if any. */
    function FirstFailure(ps: seq<string>): (r: Option<nat>)
      ensures r.None? <==> AllParse(ps)
      ensures r.Some? ==> r.value < |ps| && parsePhenotype(ps[r.value]).Failure? && AllParse(ps[..r.value])
    {
      if |ps| == 0 then None
      else if parsePhenotype(ps[0]).Failure? then Some(0)
      else
        match FirstFailure(ps[1..])
        case None => None
        case Some(k) =>
          assert forall j :: 0 <= j < k + 1 ==> ps[..k + 1][j] == ps[j];
          assert forall j :: 1 <= j < k + 1 ==> ps[j] == ps[1..][..k][j - 1];
          Some(k + 1)
    }

    /** A failing string after a prefix that converts is the first failure. */
    lemma {:induction false} FirstFailureAt(ps: seq<string>, i: nat)
      requires i < |ps| && AllParse(ps[..i]) && parsePhenotype(ps[i]).Failure?
      ensures FirstFailure(ps) == Some(i)
    {
      var r := FirstFailure(ps);
      assert r.Some?;
      var k := r.value;
      PrefixParses(ps, i, k);
      PrefixParses(ps, k, i);
    }

    /** Each string of a prefix that converts converts. */
    lemma PrefixParses(ps: seq<string>, n: nat, j: nat)
      ensures j < n <= |ps| && AllParse(ps[..n]) ==> parsePhenotype(ps[j]).Success?
    {
      if j < n <= |ps| {
        assert ps[..n][j] == ps[j];
      }
    }

    lemma ParsedStep(ps: seq<string>, i: nat)
      requires i < |ps| && AllParse(ps[..i + 1])
      ensures AllParse(ps[..i])
      ensures Parsed(ps[..i + 1]) == Parsed(ps[..i]) + {parsePhenotype(ps[i]).value}
    {
      assert forall j :: 0 <= j < i ==> ps[..i][j] == ps[..i + 1][j];
      assert ps[..i + 1][i] == ps[i];
    }

    /** `addPhenotype(String)`: converts the string and adds the phenotype, or fails and changes nothing. */
    method AddPhenotypeFromString(phenotype: string) returns (r: Result<(), InvalidStringFormat>)
      modifies this
      ensures parsePhenotype(phenotype).Success? ==>
        r.Success? && Settings() == old(Settings()).(phenotypes := old(phenotypes) + {parsePhenotype(phenotype).value})
      ensures parsePhenotype(phenotype).Failure? ==>
        r == Failure(parsePhenotype(phenotype).error) && Settings() == old(Settings())
    {
      var parsed := parsePhenotype(phenotype);
      if parsed.Failure? {
        return Failure(parsed.error);
      }
      AddPhenotype(parsed.value);
      return Success(());
    }

    /**
     * `addPhenotypes(String[])`: adds the phenotypes of the strings in order. At the first
     * string that does not convert it stops with that string's error, and the phenotypes of
     * the strings before it stay added.
     */
    method AddPhenotypesFromStrings(ps: seq<string>) returns (r: Result<(), InvalidStringFormat>)
      modifies this
      ensures FirstFailure(ps).None? ==>
        r.Success? && Settings() == old(Settings()).(phenotypes := old(phenotypes) + Parsed(ps))
      ensures FirstFailure(ps).Some? ==>
        var k := FirstFailure(ps).value;
        && r == Failure(parsePhenotype(ps[k]).error)
        && Settings() == old(Settings()).(phenotypes := old(phenotypes) + Parsed(ps[..k]))
    {
      var i := 0;
      while i < |ps|
        invariant 0 <= i <= |ps|
        invariant AllParse(ps[..i])
        invariant Settings() == old(Settings()).(phenotypes := old(phenotypes) + Parsed(ps[..i]))
      {
        r := AddPhenotypeFromString(ps[i]);
        if r.Failure? {
          FirstFailureAt(ps, i);
          return;
        }
        ParsedStep(ps, i);
        i := i + 1;
      }
      assert ps[..i] == ps;
      return Success(());
    }

    /** `setPhenotypes(String[])`: empties the phenotypes, then adds those of the strings. */
    method SetPhenotypesFromStrings(ps: seq<string>) returns (r: Result<(), InvalidStringFormat>)
      modifies this
      ensures FirstFailure(ps).None? ==>
        r.Success? && Settings() == old(Settings()).(phenotypes := Parsed(ps))
      ensures FirstFailure(ps).Some? ==>
        var k := FirstFailure(ps).value;
        && r == Failure(parsePhenotype(ps[k]).error)
        && Settings() == old(Settings()).(phenotypes := Parsed(ps[..k]))
    {
      phenotypes := {};
      r := AddPhenotypesFromStrings(ps);
    }

    /**
     * `checkConfig`: the settings adhere to the run mode. The checks of the
     * associated-phenotypes mode fall through into those of GENES_FOR_PHENOTYPES.
     */
    method CheckConfig() returns (ok: bool)
      ensures ok == Adheres(Settings())
    {
      if runMode != NoneMode {
        if database.None? {
          return false;
        }
        if outputWriter.None? {
          return false;
        }
        if genePrioritizedOutputFormatWriterFactory.None? {
          return false;
        }
        if genePrioritizerFactory.None? {
          return false;
        }
        if runMode == GenesForPhenotypesWithAssociatedPhenotypes {
          if phenotypesRetrieverFactory.None? {
            return false;
          }
          if hpoOntology.None? {
            return false;
          }
          if ontologyMaxDistance.None? {
            return false;
          }
        }
        if |phenotypes| == 0 {
          return false;
        }
      }
      return true;
    }
  }
}

=== FILE: orders.dfy ===
/**
 * Orders used for deterministic output: total orders on abstract entity types,
 * the lexicographic order on strings that `String.compareTo` implements, and the
 * stable sort that `List.sort` / `Collections.sort` perform.
 */
module Orders {

  /** `leq` is a total order on all values of `T` (a `Comparable` consistent with equals). */
  ghost predicate TotalOrder<T(!new)>(leq: (T, T) -> bool)
  {
    && (forall x, y :: leq(x, y) || leq(y, x))
    && (forall x, y :: leq(x, y) && leq(y, x) ==> x == y)
    && (forall x, y, z :: leq(x, y) && leq(y, z) ==> leq(x, z))
  }

  /** `leq` is total and transitive on the elements of `s` (ties are allowed). */
  ghost predicate TotalPreorderOn<T>(s: set<T>, leq: (T, T) -> bool)
  {
    && (forall x, y :: x in s && y in s ==> leq(x, y) || leq(y, x))
    && (forall x, y, z :: x in s && y in s && z in s && leq(x, y) && leq(y, z) ==> leq(x, z))
  }

  /** No two different elements of `s` are tied under `leq`. */
  ghost predicate AntisymmetricOn<T>(s: set<T>, leq: (T, T) -> bool)
  {
    forall x, y :: x in s && y in s && leq(x, y) && leq(y, x) ==> x == y
  }

  ghost predicate Sorted<T>(s: seq<T>, leq: (T, T) -> bool)
  {
    forall i, j :: 0 <= i < j < |s| ==> leq(s[i], s[j])
  }

  /**
   * Inserts `x` before the first element `y` with `leq(x, y)`, so `x` goes before the
   * elements it ties with; inserting each head into its sorted tail thus keeps ties in
   * input order.
   */
  function Insert<T>(x: T, s: seq<T>, leq: (T, T) -> bool): (r: seq<T>)
    ensures multiset(r) == multiset(s) + multiset{x}
    ensures |r| == |s| + 1
  {
    if s == [] then [x]
    else if leq(x, s[0]) then [x] + s
    else
      assert s == [s[0]] + s[1..];
      [s[0]] + Insert(x, s[1..], leq)
  }

  /** A stable insertion sort; the model of `List.sort` with a comparator. */
  function SortBy<T>(s: seq<T>, leq: (T, T) -> bool): (r: seq<T>)
    ensures multiset(r) == multiset(s)
    ensures |r| == |s|
  {
    if s == [] then []
    else
      assert s == [s[0]] + s[1..];
      Insert(s[0], SortBy(s[1..], leq), leq)
  }

  /** Every element of `s` lies in `dom`. */
  ghost predicate Within<T>(s: seq<T>, dom: set<T>)
  {
    forall i :: 0 <= i < |s| ==> s[i] in dom
  }

  lemma {:induction false} InsertSorted<T>(x: T, s: seq<T>, leq: (T, T) -> bool, dom: set<T>)
    requires Sorted(s, leq)
    requires Within(s, dom) && x in dom && TotalPreorderOn(dom, leq)
    ensures Sorted(Insert(x, s, leq), leq)
  {
    if s != [] && !leq(x, s[0]) {
      var tail := s[1..];
      assert s == [s[0]] + tail;
      InsertSorted(x, tail, leq, dom);
      var r := Insert(x, tail, leq);
      assert leq(s[0], x);
      forall k | 0 <= k < |r|
        ensures leq(s[0], r[k])
      {
        assert r[k] in multiset(r);
        assert r[k] in multiset(tail) + multiset{x};
        if r[k] != x {
          var j :| 0 <= j < |tail| && tail[j] == r[k];
          assert s[j + 1] == r[k];
        }
      }
    }
  }

  lemma {:induction false} SortByWithin<T>(s: seq<T>, leq: (T, T) -> bool, dom: set<T>)
    requires Within(s, dom)
    ensures Within(SortBy(s, leq), dom)
  {
    var r := SortBy(s, leq);
    forall i | 0 <= i < |r| ensures r[i] in dom {
      assert r[i] in multiset(r);
      assert r[i] in multiset(s);
    }
  }

  lemma {:induction false} SortBySorted<T>(s: seq<T>, leq: (T, T) -> bool, dom: set<T>)
    requires Within(s, dom) && TotalPreorderOn(dom, leq)
    ensures Sorted(SortBy(s, leq), leq)
  {
    if s != [] {
      var tail := s[1..];
      assert s == [s[0]] + tail;
      SortBySorted(tail, leq, dom);
      SortByWithin(tail, leq, dom);
      InsertSorted(s[0], SortBy(tail, leq), leq, dom);
    }
  }

  /** The first element of a sorted sequence is at or before all its elements. */
  lemma HeadIsLeast<T>(a: seq<T>, x: T, leq: (T, T) -> bool, dom: set<T>)
    requires Sorted(a, leq) && a != [] && x in multiset(a)
    requires Within(a, dom) && TotalPreorderOn(dom, leq)
    ensures leq(a[0], x)
  {
    var i :| 0 <= i < |a| && a[i] == x;
    if i == 0 {
      assert a[0] in dom;
    }
  }

  /**
   * Two sorted arrangements of the same elements are identical when no two different
   * elements are tied: the sorted order does not depend on the order of the input.
   */
  lemma {:induction false} SortedUnique<T>(a: seq<T>, b: seq<T>, leq: (T, T) -> bool, dom: set<T>)
    requires multiset(a) == multiset(b)
    requires Sorted(a, leq) && Sorted(b, leq)
    requires Within(a, dom) && Within(b, dom)
    requires TotalPreorderOn(dom, leq) && AntisymmetricOn(dom, leq)
    ensures a == b
  {
    assert |a| == |multiset(a)| == |multiset(b)| == |b|;
    if a != [] {
      HeadIsLeast(a, b[0], leq, dom);
      HeadIsLeast(b, a[0], leq, dom);
      assert a[0] == b[0];
      assert a == [a[0]] + a[1..];
      assert b == [b[0]] + b[1..];
      assert multiset(a[1..]) == multiset(a) - multiset{a[0]};
      assert multiset(b[1..]) == multiset(b) - multiset{b[0]};
      SortedUnique(a[1..], b[1..], leq, dom);
    }
  }

  /** Lexicographic order on strings by character, a proper prefix first: `String.compareTo`. */
  function StringLeq(a: string, b: string): (r: bool)
    ensures a <= b ==> r
    ensures r && |a| > 0 && |b| > 0 ==> a[0] <= b[0]
  {
    if a == [] then true
    else if b == [] then false
    else if a[0] != b[0] then a[0] < b[0]
    else StringLeq(a[1..], b[1..])
  }

  /** `a` and `b` agree up to some position where `a` has the smaller character. */
  ghost predicate DiffersFirstBelow(a: string, b: string)
  {
    exists k :: 0 <= k < |a| && k < |b| && a[..k] == b[..k] && a[k] < b[k]
  }

  /** Dropping an equal first character keeps where two strings first differ. */
  lemma DiffersFirstBelowTail(a: string, b: string)
    requires a != [] && b != [] && a[0] == b[0]
    ensures DiffersFirstBelow(a, b) <==> DiffersFirstBelow(a[1..], b[1..])
  {
    if DiffersFirstBelow(a, b) {
      var k :| 0 <= k < |a| && k < |b| && a[..k] == b[..k] && a[k] < b[k];
      assert k > 0;
      assert a[1..][..k - 1] == a[..k][1..] && b[1..][..k - 1] == b[..k][1..];
      assert a[1..][k - 1] == a[k] && b[1..][k - 1] == b[k];
    }
    if DiffersFirstBelow(a[1..], b[1..]) {
      var k :| 0 <= k < |a[1..]| && k < |b[1..]| && a[1..][..k] == b[1..][..k] && a[1..][k] < b[1..][k];
      assert a[..k + 1] == [a[0]] + a[1..][..k] && b[..k + 1] == [b[0]] + b[1..][..k];
    }
  }

  /** `a` is at most `b` iff it is a prefix of `b` or differs first at a smaller character. */
  lemma {:induction false} StringLeqIsLexicographic(a: string, b: string)
    ensures StringLeq(a, b) <==> a <= b || DiffersFirstBelow(a, b)
  {
    if a != [] && b != [] && a[0] == b[0] {
      StringLeqIsLexicographic(a[1..], b[1..]);
      DiffersFirstBelowTail(a, b);
      assert a <= b <==> a[1..] <= b[1..] by {
        assert a == [a[0]] + a[1..] && b == [b[0]] + b[1..];
      }
    } else if a != [] && b != [] {
      assert !(a <= b);
      if a[0] < b[0] {
        assert a[..0] == b[..0];
      }
    }
  }

  lemma {:induction false} StringLeqTotal(a: string, b: string)
    ensures StringLeq(a, b) || StringLeq(b, a)
  {
    if a != [] && b != [] && a[0] == b[0] {
      StringLeqTotal(a[1..], b[1..]);
    }
  }

  lemma {:induction false} StringLeqAntisymmetric(a: string, b: string)
    requires StringLeq(a, b) && StringLeq(b, a)
    ensures a == b
  {
    if a != [] && b != [] {
      StringLeqAntisymmetric(a[1..], b[1..]);
      assert a == [a[0]] + a[1..] && b == [b[0]] + b[1..];
    }
  }

  lemma {:induction false} StringLeqTransitive(a: string, b: string, c: string)
    requires StringLeq(a, b) && StringLeq(b, c)
    ensures StringLeq(a, c)
  {
    if a != [] && b != [] && c != [] && a[0] == b[0] && b[0] == c[0] {
      StringLeqTransitive(a[1..], b[1..], c[1..]);
    }
  }

  lemma StringLeqIsTotalOrder()
    ensures TotalOrder(StringLeq)
  {
    forall x, y ensures StringLeq(x, y) || StringLeq(y, x) { StringLeqTotal(x, y); }
    forall x, y | StringLeq(x, y) && StringLeq(y, x) ensures x == y { StringLeqAntisymmetric(x, y); }
    forall x, y, z | StringLeq(x, y) && StringLeq(y, z) ensures StringLeq(x, z) {
      StringLeqTransitive(x, y, z);
    }
  }

  /** A total order on the whole type is in particular a total preorder on every part of it. */
  lemma TotalOrderOn<T(!new)>(leq: (T, T) -> bool, s: set<T>)
    requires TotalOrder(leq)
    ensures TotalPreorderOn(s, leq) && AntisymmetricOn(s, leq)
  {
  }

  /** The elements of `s` in some order, each once: Java's `addAll` from a hashed key set. */
  method SetToSequence<T>(s: set<T>) returns (r: seq<T>)
    ensures multiset(r) == multiset(s)
  {
    r := [];
    var todo := s;
    ghost var done: set<T> := {};
    while todo != {}
      invariant done + todo == s && done !! todo
      invariant multiset(r) == multiset(done)
      decreases todo
    {
      var x :| x in todo;
      r := r + [x];
      done := done + {x};
      todo := todo - {x};
    }
  }

  /** An element at two positions of a sequence occurs at least twice in it. */
  lemma RepeatCounts<T>(r: seq<T>, i: int, j: int)
    requires 0 <= i < j < |r|
    ensures r[i] == r[j] ==> multiset(r)[r[i]] >= 2
  {
    assert r == r[..i] + [r[i]] + r[i + 1..j] + [r[j]] + r[j + 1..];
  }

  /** A sequence holding each element of a set once has no repeated element. */
  lemma {:induction false} SetSequenceDistinct<T>(r: seq<T>, s: set<T>)
    requires multiset(r) == multiset(s)
    ensures forall i, j :: 0 <= i < j < |r| ==> r[i] != r[j]
  {
    forall i, j | 0 <= i < j < |r| ensures r[i] != r[j] {
      RepeatCounts(r, i, j);
    }
  }
}

=== FILE: wrappers.dfy ===
/** Option and Result values standing in for Java's null returns and thrown exceptions, and the shared format exception. */
module Wrappers {

  /** `None` plays the role of a Java `null` result. */
  datatype Option<+T> = None | Some(value: T)

  /** `Failure` plays the role of a thrown exception. */
  datatype Result<+R, +E> = Success(value: R) | Failure(error: E)

  /** `InvalidStringFormatException`: a string that does not have the required format. */
  datatype InvalidStringFormat = InvalidStringFormat(message: string)
}
